=== FILE: README.md ===
# FuelFinder station selection, modelled in Dafny

FuelFinder is an Android app that finds fuel stations near the driver. It asks a station API for
nearby distributors, keeps those with a position and a price, and computes each one's air
distance with the haversine formula. It then selects stations and ranks them. It has three
front ends that do this slightly differently:

- **Phone screen** (`MainActivity`):
  - with a heading, it keeps the stations in a forward corridor. The corridor is more than
    0.5 km ahead, no further ahead than the look-ahead radius, within 3 km sideways and within
    a 70° cone;
  - without a heading it falls back to all stations;
  - in omnidirectional mode it keeps the nearest `maxResults`;
  - it can replace air distances with road distances from a distance-matrix service, queried
    in batches of 10.
- **Home-screen widget** (`FuelFinderWidgetProvider`): it keeps the nearest stations inside a
  70° cone, or simply the nearest ones. It then orders them by price or distance and shows at
  most three.
- **Android Auto screen** (`FuelFinderCarScreen`): it sorts every ingested station by price or
  distance and keeps at most six.

The model also covers:

- the station list adapter (`StationAdapter`), with its price-age colours and its
  "3 ore fa" labels;
- the Directions and Distance-Matrix decoding in `ApiClient`;
- the settings store `WidgetPreferencesHelper`: the `SharedPreferences` file the widget and
  the car screen read their settings from.

The files, one module each:

| file | module | what it holds |
|---|---|---|
| `optional.dfy` | `Optional` | `Option` with a default |
| `seqs.dfy` | `Seqs` | filter, take, map, batching into chunks, and arithmetic helpers |
| `sorting.dfy` | `Sorting` | Kotlin's stable `sortedBy` (nulls first) as an insertion sort, with its stability and uniqueness |
| `decimal.dfy` | `Decimal` | Kotlin's decimal rendering of integers and its inverse |
| `geometry.dfy` | `Geometry` | haversine, the local east/north plane, projections and angle normalisation |
| `stations.dfy` | `Stations` | `FuelStation`, `FuelType`, the API records, and ingestion of the API answer |
| `api_client.dfy` | `ApiClient` | route and distance-matrix decoding, and the `|`-joined destinations parameter |
| `phone_screen.dfy` | `PhoneScreen` | the phone screen's session: location updates, search, selection, display, road distances |
| `widget_prefs.dfy` | `Prefs` | the shared preference store, and saving and loading the settings |
| `widget.dfy` | `Widget` | widget configuration, selection, sort toggle and rendering |
| `car_screen.dfy` | `CarScreen` | the car screen's state, search, sort toggle, fuel cycle and template |
| `station_adapter.dfy` | `Adapter` | list rows: price text, distance text, colours, relative update time |

Modelling choices:

- **Values, not objects.** A screen's mutable fields become an immutable record (`Session`,
  `CarState`). Each callback becomes a function from the old record and the callback's
  input to the new one.
- **Asynchronous calls are inputs.** An asynchronous answer is a value passed in:
  - a station fetch is `FetchOutcome`, either `NetworkFailure` or `Answered(code, body)`;
  - a location request is `LocationOutcome`;
  - a distance-matrix call is a function from (origin, batch) to its HTTP result.
- **Trigonometry, clock and date parsing are parameters.**
  - `sin`, `cos`, `atan2` and `sqrt` are fields of a record `Geometry.Trig`. The properties
    proved hold for every choice of them.
  - The clock is an argument `nowMs`.
  - `SimpleDateFormat.parse` is a function `string -> Option<int>`.
- **Numbers.**
  - Doubles are `real`, and `Double.MAX_VALUE` is the constant `MaxDouble`.
  - Kotlin's `Int` division truncates toward zero. It is written out where it applies: seconds
    to minutes, and the age units.
- **Sorting.** Kotlin's `sortedBy { … }` with a nullable key is `Sorting.SortBy` over
  `SortKey = Null | Num(real)`, with `null` before every number.
  - Stability is stated per key class: for every key, the elements carrying it keep their
    input order.
  - `Sorting.StableSortUnique` shows that this determines the output completely.
- **Duplicated age formatting.** `MainActivity.humanizeAge` and `StationAdapter.humanizeAge`
  are the same code. One model, `Adapter.HumanizeAge`, serves both.

Behaviours of the code worth noting:

- `stopLiveSearch` does not clear the remembered heading (`lastGoodBearingDeg`). It survives
  into the next session (`PhoneScreen.StopLiveSearch`).
- When the station API answers with an empty list, the phone screen empties the adapter and
  the status line. It leaves `currentStations` untouched (`PhoneScreen.OnStationsResponse`).
- When no heading is known, the phone screen's fallback returns every ingested station,
  untruncated (`PhoneScreen.FilterAlongDirectionWithFallback`). The final display sort does
  not truncate either.
- A failed station fetch leaves the previous list on the screen and only changes the status
  text.
- No caller in the app writes the settings store: nothing calls
  `WidgetPreferencesHelper.saveSettings` or `markAppAsInitialized`, and `openSettings` keeps
  the dialog's values in `MainActivity`'s own fields. As written, `app_initialized` is never
  set, so the widget always shows its setup view. The car screen always reads the defaults:
  gasolio, 10 km and 5 results. The lemmas about saving (`Prefs.SaveLoadRoundTrip`,
  `Widget.SavedSettingsReachWidget`, `CarScreen.SavedFuelReachesCar`) state what a writer
  of the store would get.
- The widget's defaults differ from the settings helper's: at most 3 results against 5,
  and 360° mode against along-route mode (`Widget.DefaultsDisagree`).

## Model

| member | source | states |
|---|---|---|
| Sorting.SortByIsStableSort | app/src/main/java/com/fuelfinder/app/MainActivity.kt:559-566 | `sortedBy` returns a permutation of its input, ascending by key, that keeps every key class in input order |
| Sorting.StableSortUnique | app/src/main/java/com/fuelfinder/app/MainActivity.kt:559-566 | any arrangement that is ascending by key and keeps every key class in input order is exactly the `sortedBy` result, so the ranking is deterministic |
| Sorting.SortByIdempotent | app/src/main/java/com/fuelfinder/app/MainActivity.kt:559-568 | re-sorting an already sorted list changes nothing |
| Sorting.TopNKeepsSmallest | app/src/main/java/com/fuelfinder/app/MainActivity.kt:447 | `sortedBy(key).take(n)` keeps the n smallest: every dropped element has a key no smaller than any kept one |
| Decimal.NatToStringRoundTrip | app/src/main/java/com/fuelfinder/app/StationAdapter.kt:130 | the decimal text of a count in a label reads back as that count |
| Decimal.IntToStringRoundTrip | app/src/main/java/com/fuelfinder/app/widget/FuelFinderWidgetProvider.kt:121 | the decimal text of any widget id, including a minus sign, reads back as that id |
| Decimal.IntToStringInjective | app/src/main/java/com/fuelfinder/app/widget/FuelFinderWidgetProvider.kt:121 | two different widget ids never print the same |
| Geometry.ToLocalENKm | app/src/main/java/com/fuelfinder/app/MainActivity.kt:805-813 | the origin itself lies at (0, 0) of the local east/north plane |
| Geometry.CrossTrackKm | app/src/main/java/com/fuelfinder/app/MainActivity.kt:785-789 | the lateral offset is non-negative and is the absolute value of the component across the heading |
| Geometry.AlongAcrossPythagoras | app/src/main/java/com/fuelfinder/app/MainActivity.kt:780-789 | for a unit heading, the along-track and cross-track components split the squared local distance exactly |
| Geometry.ReverseHeading | app/src/main/java/com/fuelfinder/app/MainActivity.kt:773-789 | reversing the heading negates the forward projection and leaves the lateral offset unchanged |
| Geometry.NormalizeAngle | app/src/main/java/com/fuelfinder/app/MainActivity.kt:798-803 | the result lies in [-180, 180] and differs from the input by whole turns |
| Geometry.NormalizeAngleDeg | app/src/main/java/com/fuelfinder/app/MainActivity.kt:798-803 | the two `while` loops end in [-180, 180], a whole number of turns from the input, at the value `NormalizeAngle` defines |
| Geometry.NormalizeAngleFixesRange | app/src/main/java/com/fuelfinder/app/MainActivity.kt:798-803 | an angle is left unchanged exactly when it already lies in [-180, 180] |
| Geometry.NormalizeAngleIdempotent | app/src/main/java/com/fuelfinder/app/MainActivity.kt:798-803 | normalising twice is normalising once |
| Geometry.NormalizeAngleOdd | app/src/main/java/com/fuelfinder/app/MainActivity.kt:798-803 | normalising the opposite angle gives the opposite result |
| Geometry.AngularDifferenceDeg | app/src/main/java/com/fuelfinder/app/widget/FuelFinderWidgetProvider.kt:513-517 | the absolute, normalised difference between target bearing and heading lies in [0, 180] |
| Geometry.AngularDifferenceSymmetric | app/src/main/java/com/fuelfinder/app/widget/FuelFinderWidgetProvider.kt:513-517 | the angular difference does not depend on which angle is the target |
| Geometry.AngleToPointDeg | app/src/main/java/com/fuelfinder/app/MainActivity.kt:791-796 | the phone's angle between heading and station lies in [0, 180] |
| Geometry.SphericalAngleToPoint | app/src/main/java/com/fuelfinder/app/widget/FuelFinderWidgetProvider.kt:504-518 | the widget's angle between heading and station lies in [0, 180] |
| Stations.FuelTypeValueRoundTrip | app/src/main/java/com/fuelfinder/app/MainActivity.kt:877-882 | a fuel type's API value finds that fuel type again, and only its own value does |
| Stations.BuildStation | app/src/main/java/com/fuelfinder/app/MainActivity.kt:431-442 | a built station sits at the distributor's coordinates, carries its price, has the given air distance and no road distance |
| Stations.Ingest | app/src/main/java/com/fuelfinder/app/MainActivity.kt:419-443 | ingestion never adds stations; each kept station has its haversine distance from the request point, within the radius when one is given, a price, and no route fields |
| Stations.IngestIsFilterThenBuild | app/src/main/java/com/fuelfinder/app/MainActivity.kt:419-443 | ingestion equals keeping the distributors with coordinates, a price and (on the phone) a distance within the radius, then building one station from each, in input order |
| Stations.IngestMembership | app/src/main/java/com/fuelfinder/app/MainActivity.kt:419-428 | a complete distributor's station is in the result exactly when it is within the radius |
| Stations.IngestNeverBuilds | app/src/main/java/com/fuelfinder/app/MainActivity.kt:428 | a distributor beyond the radius never yields a station |
| Stations.AirKeysAgree | app/src/main/java/com/fuelfinder/app/widget/FuelFinderWidgetProvider.kt:266-272 | for stations that have an air distance, sorting by `airDistanceKm` and by `airDistanceKm ?: MAX_VALUE` order them alike |
| Stations.EffectiveDistancePrecedence | app/src/main/java/com/fuelfinder/app/MainActivity.kt:562-565 | distance sorting uses the road distance when known, else the air distance, and a station with neither sorts after every station with one |
| ApiClient.SecondsToMinutes | app/src/main/java/com/fuelfinder/app/ApiClient.kt:250 | minutes are whole minutes rounded toward zero: 60·m ≤ s < 60·m + 60 for non-negative s |
| ApiClient.MinutesBackToSecondsFits | app/src/main/java/com/fuelfinder/app/MainActivity.kt:626 | turning the minutes back into seconds never overflows an `Int` and loses less than a minute |
| ApiClient.DecodeElement | app/src/main/java/com/fuelfinder/app/ApiClient.kt:245-257 | a matrix element gives a result exactly when its status is "OK" and it has both distance and duration; then km = metres / 1000 and no polyline |
| ApiClient.GetBatchDistances | app/src/main/java/com/fuelfinder/app/ApiClient.kt:229-265 | a failed or row-less answer gives one null per destination; otherwise one entry per element of the first row, non-null exactly for the usable elements |
| ApiClient.BatchIsolation | app/src/main/java/com/fuelfinder/app/ApiClient.kt:245-257 | changing one element of the answer changes only that destination's result |
| ApiClient.GetRealDistance | app/src/main/java/com/fuelfinder/app/ApiClient.kt:191-224 | a route result exists exactly when the call succeeded with a non-empty route list whose first route has a leg; it reports that leg's distance in km, its minutes and the route's polyline |
| ApiClient.RouteAndMatrixAgree | app/src/main/java/com/fuelfinder/app/ApiClient.kt:209-252 | the route call and a matrix element convert the same metres and seconds to the same kilometres, minutes and texts; only the route carries a polyline |
| ApiClient.SplitJoinRoundTrip | app/src/main/java/com/fuelfinder/app/ApiClient.kt:235-237 | joining segments free of the separator with `|` and splitting again gives back the segments |
| ApiClient.DestinationsParamSegments | app/src/main/java/com/fuelfinder/app/ApiClient.kt:234-237 | the destinations parameter splits on `|` into exactly one "lat,lon" text per destination, in order |
| PhoneScreen.BearingForRouteMode | app/src/main/java/com/fuelfinder/app/MainActivity.kt:518-523 | no heading exactly when the fix's bearing is unreliable and none was remembered; a heading other than the remembered one is the fix's own reliable bearing |
| PhoneScreen.FilterAlongDirection | app/src/main/java/com/fuelfinder/app/MainActivity.kt:490-515 | the stations inside the forward corridor and cone, all from the input, ascending by forward distance, exactly min(`maxResults`, corridor count) of them |
| PhoneScreen.CorridorOnly | app/src/main/java/com/fuelfinder/app/MainActivity.kt:500-507 | anything drawn from the corridor candidates passes all four corridor tests |
| PhoneScreen.FilterAlongDirectionKeepsNearest | app/src/main/java/com/fuelfinder/app/MainActivity.kt:510-515 | a corridor station left out is no nearer along the heading than any station kept |
| PhoneScreen.FilterAlongDirectionKeepsAllWhenFew | app/src/main/java/com/fuelfinder/app/MainActivity.kt:493-515 | when the corridor holds at most `maxResults` stations, every one of them is kept |
| PhoneScreen.FilterAlongDirectionWithFallback | app/src/main/java/com/fuelfinder/app/MainActivity.kt:480-516 | the direction notice appears exactly when a fix exists but no heading is known; without a fix or heading all stations come back unchanged; otherwise at most `maxResults` of them |
| PhoneScreen.FallbackNeverEmptiesForLackOfHeading | app/src/main/java/com/fuelfinder/app/MainActivity.kt:480-488 | an empty selection means no stations came in or a heading was used, never that a heading was missing |
| PhoneScreen.Nearest | app/src/main/java/com/fuelfinder/app/MainActivity.kt:445-447 | omnidirectional mode keeps min(maxResults, n) stations from the input, ascending by air distance |
| PhoneScreen.NearestKeepsNearest | app/src/main/java/com/fuelfinder/app/MainActivity.kt:447 | a station left out is no nearer in air distance than any kept |
| PhoneScreen.SortForDisplay | app/src/main/java/com/fuelfinder/app/MainActivity.kt:559-566 | the display order is a permutation sorted by first price or by effective distance, stable within equal keys |
| PhoneScreen.SortForDisplayIdempotent | app/src/main/java/com/fuelfinder/app/MainActivity.kt:559-568 | re-applying the display sort changes nothing |
| PhoneScreen.RefreshAirDistances | app/src/main/java/com/fuelfinder/app/MainActivity.kt:575-578 | only `airDistanceKm` changes, and it becomes the haversine distance from the new fix; route fields survive |
| PhoneScreen.RefreshAirIdempotent | app/src/main/java/com/fuelfinder/app/MainActivity.kt:575-578 | refreshing twice from the same fix is refreshing once |
| PhoneScreen.RefreshAfterIngestIsIdentity | app/src/main/java/com/fuelfinder/app/MainActivity.kt:570-578 | refreshing freshly ingested stations from the request point changes nothing |
| PhoneScreen.MergeRouteResults | app/src/main/java/com/fuelfinder/app/MainActivity.kt:623-628 | only route fields change; a station with a result gets its km and minutes·60 seconds, and one without a result is untouched |
| PhoneScreen.RefreshAndMergeCommute | app/src/main/java/com/fuelfinder/app/MainActivity.kt:575-628 | an air refresh and a route merge touch disjoint fields, so their order does not matter |
| PhoneScreen.RouteResultsAligned | app/src/main/java/com/fuelfinder/app/MainActivity.kt:610-621 | when every batch answers one element per destination, result i comes from batch i / 10, position i % 10, which is station i |
| PhoneScreen.AllBatchesFailedLeavesStations | app/src/main/java/com/fuelfinder/app/MainActivity.kt:610-628 | when every batch fails, merging leaves every station as it was |
| PhoneScreen.UpdateAirDistancesOnly | app/src/main/java/com/fuelfinder/app/MainActivity.kt:570-582 | without a fix nothing changes; with one, air distances are refreshed and the display re-sorted, and nothing else changes |
| PhoneScreen.UpdateUserLocation | app/src/main/java/com/fuelfinder/app/MainActivity.kt:303-326 | the fix is stored, a reliable bearing is remembered, fuel, mode and sort chip are untouched, and air distances are refreshed only during a live search with stations; otherwise list and display stay |
| PhoneScreen.BearingMemoryIsLastReliable | app/src/main/java/com/fuelfinder/app/MainActivity.kt:306-309 | after any sequence of fixes the remembered heading is the last reliable bearing among them, or the earlier one if none was reliable |
| PhoneScreen.SearchAndUpdate | app/src/main/java/com/fuelfinder/app/MainActivity.kt:390-403 | no query without a fix; with one the status says searching and the query is centred on the fix, asks for twice `maxResults` within the look-ahead radius, for the selected fuel |
| PhoneScreen.InitialSessionMatchesDefaults | app/src/main/java/com/fuelfinder/app/MainActivity.kt:80-98 | the screen starts idle without a fix, its empty display consistent, and with the same settings `loadSettings` reports for a store holding none of them |
| PhoneScreen.StartLiveSearch | app/src/main/java/com/fuelfinder/app/MainActivity.kt:332-368 | without a fix nothing happens; with one the search goes live and a first query is issued |
| PhoneScreen.StopLiveSearch | app/src/main/java/com/fuelfinder/app/MainActivity.kt:370-388 | the search stops, the list and adapter empty and the status resets, while the remembered heading and fix remain |
| PhoneScreen.SelectSortMode | app/src/main/java/com/fuelfinder/app/MainActivity.kt:207-213 | choosing a sort mode keeps the stations and re-displays all of them in the new order |
| PhoneScreen.UpdateStationDisplay | app/src/main/java/com/fuelfinder/app/MainActivity.kt:525-544 | the given stations become the current list and the adapter shows them sorted by the current mode |
| PhoneScreen.UpdateRealDistances | app/src/main/java/com/fuelfinder/app/MainActivity.kt:599-641 | without a fix nothing changes; with one, the batched road results are merged into the list, the display re-sorted and the status reports the count |
| PhoneScreen.RoutingChangesOnlyRoutes | app/src/main/java/com/fuelfinder/app/MainActivity.kt:622-628 | computing road distances changes only the route fields of each station, keeps its air distance and keeps the display consistent |
| PhoneScreen.SelectFinal | app/src/main/java/com/fuelfinder/app/MainActivity.kt:419-451 | the final selection is drawn from the stations ingested around the request fix, all within the look-ahead radius; in 360° mode it is the nearest `maxResults`, in route mode the fallback selection from the session's fix and remembered heading |
| PhoneScreen.OnStationsResponse | app/src/main/java/com/fuelfinder/app/MainActivity.kt:405-471 | a network failure or an HTTP error only sets the status; an empty answer empties the adapter only; otherwise the stations found are shown; the fix and heading memory never change |
| PhoneScreen.OnStationsFound | app/src/main/java/com/fuelfinder/app/MainActivity.kt:443-466 | the shown list is the final selection, differing only in route fields when road distances are on, and exactly it when they are off |
| PhoneScreen.ShowStations | app/src/main/java/com/fuelfinder/app/MainActivity.kt:453-466 | showing a selection keeps its stations and air distances, changes at most route fields, and keeps the display consistent |
| Prefs.GetInt | app/src/main/java/com/fuelfinder/app/widget/WidgetPreferencesHelper.kt:59-61 | a stored integer is returned, and an absent key gives the default |
| Prefs.GetString | app/src/main/java/com/fuelfinder/app/widget/WidgetPreferencesHelper.kt:62 | a stored string is returned, and an absent key gives the default |
| Prefs.GetBoolean | app/src/main/java/com/fuelfinder/app/widget/WidgetPreferencesHelper.kt:63-65 | a stored boolean is returned, and an absent key gives the default |
| Prefs.SaveSettings | app/src/main/java/com/fuelfinder/app/widget/WidgetPreferencesHelper.kt:28-51 | saving adds exactly the seven settings keys and leaves every other key alone |
| Prefs.LoadSettings | app/src/main/java/com/fuelfinder/app/widget/WidgetPreferencesHelper.kt:56-67 | a store holding none of the settings keys loads the defaults: 10 km, 5 results, 1 min, gasolio, along-route, air distance, not initialised |
| Prefs.MarkAppAsInitialized | app/src/main/java/com/fuelfinder/app/widget/WidgetPreferencesHelper.kt:72-76 | only the initialised flag is added, and the loaded settings change only in that flag |
| Prefs.SaveLoadRoundTrip | app/src/main/java/com/fuelfinder/app/widget/WidgetPreferencesHelper.kt:28-67 | loading after saving returns exactly the saved settings, marked initialised, and the fuel value maps back to the saved fuel type |
| Prefs.SaveSettingsIdempotent | app/src/main/java/com/fuelfinder/app/widget/WidgetPreferencesHelper.kt:38-46 | saving the same settings twice is saving them once |
| Prefs.LastSaveWins | app/src/main/java/com/fuelfinder/app/widget/WidgetPreferencesHelper.kt:38-46 | after two saves, loading sees only the second |
| Widget.SortModeKeysDistinct | app/src/main/java/com/fuelfinder/app/widget/FuelFinderWidgetProvider.kt:41-48 | different widget ids have different sort-mode keys, and none collides with a settings key |
| Widget.LoadWidgetConfig | app/src/main/java/com/fuelfinder/app/widget/FuelFinderWidgetProvider.kt:109-121 | no configuration before the app is initialised; afterwards at most 3 results (3 by default) and that widget's own sort mode |
| Widget.SavedSettingsReachWidget | app/src/main/java/com/fuelfinder/app/widget/FuelFinderWidgetProvider.kt:117-121 | settings saved through `saveSettings` reach the widget, with the result count capped at 3 |
| Widget.DefaultsDisagree | app/src/main/java/com/fuelfinder/app/widget/FuelFinderWidgetProvider.kt:117-121 | with nothing saved, the widget reads 3 results in 360° mode while the helper reads 5 results along-route |
| Widget.ToggleSortMode | app/src/main/java/com/fuelfinder/app/widget/FuelFinderWidgetProvider.kt:456-462 | PRICE becomes DISTANCE and anything else becomes PRICE, writing only that widget's key |
| Widget.ToggleIsolation | app/src/main/java/com/fuelfinder/app/widget/FuelFinderWidgetProvider.kt:456-462 | toggling one widget changes neither another widget's sort mode nor the app settings |
| Widget.ToggleTwice | app/src/main/java/com/fuelfinder/app/widget/FuelFinderWidgetProvider.kt:456-462 | toggling twice restores PRICE or DISTANCE, and turns any other stored value into DISTANCE |
| Widget.WidgetIngestHasNoRadius | app/src/main/java/com/fuelfinder/app/widget/FuelFinderWidgetProvider.kt:241-261 | the widget keeps every distributor with coordinates and a price, however far away |
| Widget.SelectNearest | app/src/main/java/com/fuelfinder/app/widget/FuelFinderWidgetProvider.kt:263-267 | min(maxResults, n) candidates, drawn from the cone (or from all stations), ascending by air distance |
| Widget.WidgetSelectionSound | app/src/main/java/com/fuelfinder/app/widget/FuelFinderWidgetProvider.kt:277-285 | anything taken from the candidates is one of the given stations and, in route mode with a bearing, lies less than 70° off the heading |
| Widget.ApplyWidgetSort | app/src/main/java/com/fuelfinder/app/widget/FuelFinderWidgetProvider.kt:270-274 | PRICE and DISTANCE give stable permutations sorted by price or air distance; any other mode keeps the order |
| Widget.ProcessStations | app/src/main/java/com/fuelfinder/app/widget/FuelFinderWidgetProvider.kt:234-275 | the nearest eligible ingested stations, exactly min(`maxResults`, eligible count) of them, each with its haversine distance, inside the cone in route mode with a bearing, then ordered by price, by distance, or left in distance order for any other sort mode |
| Widget.IngestedAirDistances | app/src/main/java/com/fuelfinder/app/widget/FuelFinderWidgetProvider.kt:246-256 | every station drawn from the widget's ingestion carries its haversine distance from the fix |
| Widget.WidgetKeepsNearest | app/src/main/java/com/fuelfinder/app/widget/FuelFinderWidgetProvider.kt:263-267 | a candidate the widget leaves out is no nearer than any station it shows |
| Widget.SortModeOnlyReorders | app/src/main/java/com/fuelfinder/app/widget/FuelFinderWidgetProvider.kt:269-274 | the sort mode decides only the order, never which stations are shown |
| Widget.DisplayStationList | app/src/main/java/com/fuelfinder/app/widget/FuelFinderWidgetProvider.kt:357-439 | the first min(3, n) stations become rows; the empty text appears exactly when there are none; the indicator names the sort mode |
| Widget.UpdateWidget | app/src/main/java/com/fuelfinder/app/widget/FuelFinderWidgetProvider.kt:103-229 | the setup view appears exactly when the app is not initialised; after that each location or network failure shows its own message; a crash happens exactly on a successful answer with a negative stored count; stations are shown or a crash happens exactly when a query was sent and answered successfully |
| Widget.WidgetSearch | app/src/main/java/com/fuelfinder/app/widget/FuelFinderWidgetProvider.kt:115-214 | a query is sent exactly when the app is initialised and a fix is found; it is centred on the fix, with the stored radius and fuel and twice the capped count, so at most six results (six with nothing stored) |
| Widget.WidgetRowsAreProcessed | app/src/main/java/com/fuelfinder/app/widget/FuelFinderWidgetProvider.kt:103-135 | once initialised and answered, the widget's rows are exactly the processed stations: the three-row cut hides none |
| CarScreen.LoadFuel | app/src/main/java/com/fuelfinder/app/auto/FuelFinderCarScreen.kt:130-134 | the stored fuel value picks its fuel type, and an unknown value picks gasolio |
| CarScreen.SavedFuelReachesCar | app/src/main/java/com/fuelfinder/app/auto/FuelFinderCarScreen.kt:130-134 | the fuel saved through `saveSettings` is the fuel the car screen loads |
| CarScreen.InitialState | app/src/main/java/com/fuelfinder/app/auto/FuelFinderCarScreen.kt:27-40 | the screen starts idle, sorted by distance, with the stored fuel and a list that is within six and sorted |
| CarScreen.CarMaxResults | app/src/main/java/com/fuelfinder/app/auto/FuelFinderCarScreen.kt:161-163 | the stored result count when it is at most 6, and 6 otherwise; 5 when nothing is stored |
| CarScreen.SearchStations | app/src/main/java/com/fuelfinder/app/auto/FuelFinderCarScreen.kt:154-171 | no query without a fix; with one, loading starts and the query is centred on the fix, asks for twice the capped count within the stored radius, for the selected fuel |
| CarScreen.UpdateLocation | app/src/main/java/com/fuelfinder/app/auto/FuelFinderCarScreen.kt:136-152 | without permission or without a last fix nothing changes; with one, the fix becomes the screen's location and a search around it starts |
| CarScreen.StartupSearch | app/src/main/java/com/fuelfinder/app/auto/FuelFinderCarScreen.kt:36-40 | the screen as created, given a fix, shows the loading template and queries the stored fuel for at most twice six results (ten with nothing stored); without one it shows the empty template and sends nothing |
| CarScreen.ProcessStations | app/src/main/java/com/fuelfinder/app/auto/FuelFinderCarScreen.kt:191-223 | min(maxResults, n) ingested stations, sorted by the active key |
| CarScreen.CarKeepsBest | app/src/main/java/com/fuelfinder/app/auto/FuelFinderCarScreen.kt:217-222 | a station left out is no better under the active key than any station kept |
| CarScreen.OnSearchResult | app/src/main/java/com/fuelfinder/app/auto/FuelFinderCarScreen.kt:172-188 | loading ends; a failure keeps the old list; a success with a non-negative count replaces it with `processStations`' list: at most `maxResults` sorted ingested stations; a negative count crashes |
| CarScreen.SearchKeepsInvariant | app/src/main/java/com/fuelfinder/app/auto/FuelFinderCarScreen.kt:172-188 | a completed search keeps at most six stations sorted by the current mode |
| CarScreen.ToggleSortMode | app/src/main/java/com/fuelfinder/app/auto/FuelFinderCarScreen.kt:225-236 | the mode flips and the same stations are stably re-sorted by the new key; nothing else changes |
| CarScreen.ToggleKeepsInvariant | app/src/main/java/com/fuelfinder/app/auto/FuelFinderCarScreen.kt:225-236 | toggling keeps the list valid, and toggling twice restores the mode and the set of stations |
| CarScreen.ToggleTwiceCanReorderTies | app/src/main/java/com/fuelfinder/app/auto/FuelFinderCarScreen.kt:225-236 | toggling twice can swap two stations at equal distance, because the price sort in between reorders them |
| CarScreen.CycleFuelType | app/src/main/java/com/fuelfinder/app/auto/FuelFinderCarScreen.kt:238-245 | cycling always changes the fuel |
| CarScreen.CycleFuelTypeOrbit | app/src/main/java/com/fuelfinder/app/auto/FuelFinderCarScreen.kt:238-245 | four cycles return to the start, passing through all four fuels |
| CarScreen.FuelLabelInjective | app/src/main/java/com/fuelfinder/app/auto/FuelFinderCarScreen.kt:247-254 | different fuels have different labels |
| CarScreen.OnGetTemplate | app/src/main/java/com/fuelfinder/app/auto/FuelFinderCarScreen.kt:42-50 | loading, empty and list templates are chosen exactly by the state; the list shows the first min(6, n) stations; the sort action reads "Prezzo" in distance mode and "Distanza" in price mode; the fuel action shows the fuel label |
| CarScreen.TemplateShowsAll | app/src/main/java/com/fuelfinder/app/auto/FuelFinderCarScreen.kt:84-86 | the six-row cut never hides a station: under the screen invariant the list template shows all stations, in sort order |
| CarScreen.SearchThenTemplate | app/src/main/java/com/fuelfinder/app/auto/FuelFinderCarScreen.kt:172-188 | after a successful answer to the screen's own search the template shows exactly the stations `processStations` kept (the empty template when none) |
| Adapter.UpdateStations | app/src/main/java/com/fuelfinder/app/StationAdapter.kt:20-24 | the adapter then holds exactly the new items, in order |
| Adapter.UpdateForgetsPrevious | app/src/main/java/com/fuelfinder/app/StationAdapter.kt:20-24 | what the adapter held before makes no difference |
| Adapter.Rows | app/src/main/java/com/fuelfinder/app/StationAdapter.kt:31-35 | one row per item, each bound from the item at its position |
| Adapter.ComputeAgeMinutes | app/src/main/java/com/fuelfinder/app/StationAdapter.kt:105-115 | no age for a blank date, an unparsable date or a future date; otherwise the whole minutes elapsed |
| Adapter.Classify | app/src/main/java/com/fuelfinder/app/StationAdapter.kt:126-150 | each age unit covers exactly its range of minutes, and the count is the age divided by the unit's length (years: at least 1) |
| Adapter.ClassifyMonotone | app/src/main/java/com/fuelfinder/app/StationAdapter.kt:126-150 | an older price never gets a smaller unit, nor a smaller count in the same unit |
| Adapter.HumanizeAge | app/src/main/java/com/fuelfinder/app/StationAdapter.kt:126-128 | "pochi secondi fa" is the label exactly for an age of zero minutes |
| Adapter.HumanizeMinutes | app/src/main/java/com/fuelfinder/app/StationAdapter.kt:129-130 | under an hour the label is "1 minuto fa" or the minute count followed by " minuti fa" |
| Adapter.HumanizeYears | app/src/main/java/com/fuelfinder/app/StationAdapter.kt:148-149 | from 360 days the label is "1 anno fa" below two years, else the count of 365-day years followed by " anni fa" |
| Adapter.RenderIsParsed | app/src/main/java/com/fuelfinder/app/StationAdapter.kt:126-150 | every label reads back as the unit and count it was made from |
| Adapter.HumanizeAgeDeterminesAge | app/src/main/java/com/fuelfinder/app/StationAdapter.kt:126-150 | two ages get the same label exactly when they fall in the same unit with the same count |
| Adapter.FormatLastUpdateRelative | app/src/main/java/com/fuelfinder/app/StationAdapter.kt:117-124 | "Aggiornamento n/d" exactly for a blank date; the raw date when no age is known; otherwise "Aggiornato: " and the age label |
| Adapter.FormatRelativeUpdate | app/src/main/java/com/fuelfinder/app/MainActivity.kt:718-722 | "n/d" exactly when no age is known, else the age label |
| Adapter.HumanizeAgeNotUnavailable | app/src/main/java/com/fuelfinder/app/MainActivity.kt:718-722 | no age label reads "n/d", so "n/d" always means an unknown age |
| Adapter.LastUpdateTextsAgree | app/src/main/java/com/fuelfinder/app/StationAdapter.kt:117-124 | the adapter's update text is the phone screen's with "Aggiornato: " in front, except where the phone says "n/d" |
| Adapter.PriceColour | app/src/main/java/com/fuelfinder/app/StationAdapter.kt:86-93 | red exactly above a day old, accent exactly above 6 hours up to a day, primary when unknown or at most 6 hours old |
| Adapter.PriceColourAgreesWithLabel | app/src/main/java/com/fuelfinder/app/StationAdapter.kt:86-93 | labels in minutes or hours are never red, labels in days or more are never primary, and weeks or more are always red |
| Adapter.PriceTextOf | app/src/main/java/com/fuelfinder/app/StationAdapter.kt:53-59 | "Prezzo n/d" exactly when the station has no price, else its first price |
| Adapter.DistanceTextOf | app/src/main/java/com/fuelfinder/app/StationAdapter.kt:61-75 | road text exactly when a road distance is known, with minutes exactly when a duration is too; "Calcolo..." exactly when no distance is known |
| Adapter.Bind | app/src/main/java/com/fuelfinder/app/StationAdapter.kt:49-103 | a row shows the station's name and address, exactly the price text `PriceTextOf` and the distance text `DistanceTextOf` give, a green distance exactly for road distances, and the age-based price colour and update text |
| Adapter.GreenIffRoad | app/src/main/java/com/fuelfinder/app/StationAdapter.kt:95-100 | the distance is green exactly when its text is a road distance |
| Adapter.ShownDistanceIsSortDistance | app/src/main/java/com/fuelfinder/app/StationAdapter.kt:62-75 | the distance shown is the distance the list is sorted by, and "Calcolo..." rows sort last |
| Adapter.MergedMinutesShowUnchanged | app/src/main/java/com/fuelfinder/app/StationAdapter.kt:65-68 | a merged road result shows its own km and minutes: minutes·60 seconds divided by 60 is the minutes again |

## Left out

- User interface: maps, markers, camera moves, bottom sheet, buttons, toasts, `RemoteViews`,
  pending intents, car templates' builders and navigation intents. They are outside the
  selection logic. Only the data each view shows is modelled.
- Timers and coroutines: the periodic refresh in `startLiveSearch`, the widget's alarm
  scheduling, `WidgetUpdateService` and `FuelFinderCarAppService`. Each callback is a
  transition of its own, and interleavings of callbacks are not modelled. The exception is the
  route coroutine, covered in the next line.
- PhoneScreen.ShowStations: with road distances on, it runs `updateRealDistances` to completion
  inside the same step (`PhoneScreen.UpdateRealDistances`), although the app launches it as a
  separate coroutine. Two things the app shows are therefore not modelled: the interim
  status "… • Calcolo distanze stradali...", and the moment when stations are listed with air
  distances only while routes are pending. That interim state is the session
  `ShowStations` builds before routing, the one it returns when road distances are off. The
  coroutine's caught exception (a toast, no merge) is not modelled either.
- The location-retry counter in `startLiveSearch` and the phone's permission checks. They only
  delay or skip a step. On the car screen the permission answer and the last known fix are
  inputs of `CarScreen.UpdateLocation`.
- `SettingsDialog` and `openSettings`. The settings they produce are an input, the session's
  `PhoneSettings`.
- `MainActivity.updateAirDistances` (lines 584-597). Nothing in the app calls it.
- Text formatting of floating-point values (`String.format("%.1f km")`, `"€ %.3f"`). Rows carry
  the numbers, not their rendering.
- The station id string built from ranking and coordinates. Stations are compared as records.
- `DistributorDto` is not part of this model's sources. Its fields are taken from their uses
  (`latitudine`, `longitudine`, `prezzo`, `gestore`, `indirizzo`, `data`).
- Floating-point arithmetic: doubles are exact reals, and sin, cos, atan2 and sqrt are
  parameters. Rounding and NaN are not modelled.
- The widget's "loading" view and the exception-path texts "Errore widget" and
  "Errore visualizzazione".
- Blank strings: `IsNullOrBlank` uses Kotlin's `Char.isWhitespace` set, written out. It
  includes the no-break spaces that Java's `Character.isWhitespace` excludes. No other
  character counts as blank.
- Prefs.GetInt: a stored value of another type falls back to the default, where Android would
  throw `ClassCastException`. The settings helper only ever writes matching types.
- Prefs.GetString: a stored value that is not a string falls back to the default, where Android
  would throw `ClassCastException`, for the same reason.
- Prefs.GetBoolean: a stored value that is not a boolean falls back to the default, where
  Android would throw `ClassCastException`, for the same reason.
- PhoneScreen.FilterAlongDirectionWithFallback: in the filtered case it states only the bound
  and the membership. The corridor and ordering facts are stated on
  `PhoneScreen.FilterAlongDirection`, which it calls.
- PhoneScreen.OnStationsFound: with road distances on, it does not restate the merged road
  values. `PhoneScreen.UpdateRealDistances` states them.
- Geometry.AngleToPointDeg: only the range is proved. The value depends on the trigonometric
  parameters.
- Geometry.SphericalAngleToPoint: only the range is proved, for the same reason.
- Widget.UpdateWidget: its own contract bounds the rows by three but does not say which
  stations fill them. `Widget.WidgetRowsAreProcessed` states that they are exactly the
  processed list, and `Widget.ProcessStations` states what that list is.
- PhoneScreen session settings: `maxResults` is a natural number. Kotlin would throw on a
  negative `take`, but the settings dialog never produces one.
- ApiClient.GetRealDistance, ApiClient.GetBatchDistances: the nested response fields
  (`legs`, `overview_polyline`, `elements` and each value's `text`) are assumed present. Only
  `routes` and `rows` may be missing. Gson can leave a missing field null even when Kotlin
  declares it non-null. The source then hits a null pointer and catches it: the route call
  returns null, and the batch returns one null per destination. That path is not modelled.
- Batch alignment: when a distance-matrix row holds fewer elements than its batch, later
  results shift onto the wrong stations, because the app appends them in sequence.
  `PhoneScreen.RouteResultsAligned` assumes one element per destination, as the service
  promises.

=== FILE: api_client.dfy ===
/** `RealDistanceCalculator`: decoding of Distance-Matrix and Directions responses into route
    results, and the encoding of the destination list of a Distance-Matrix request. The HTTP
    call itself is an input: either it threw, or it answered with a status code and a body. */
module ApiClient {
  import opened Optional
  import opened Seqs
  import opened Geometry

  /** Outcome of `execute()`: an exception, or a response with HTTP code and (parsed) body. */
  datatype HttpCall<B> = Threw | Responded(code: int, body: Option<B>)

  /** Retrofit's `isSuccessful`: a 2xx code. */
  predicate IsSuccessful(code: int) {
    200 <= code < 300
  }

  /** `Distance`/`Duration`: display text and value (metres or seconds, a Kotlin `Int`). */
  datatype TextValue = TextValue(text: string, value: int)

  datatype Element = Element(distance: Option<TextValue>, duration: Option<TextValue>, status: string)
  datatype MatrixRow = MatrixRow(elements: seq<Element>)
  /** `DistanceMatrixResponse`; `rows` may be null when the JSON omits it. */
  datatype MatrixBody = MatrixBody(rows: Option<seq<MatrixRow>>, status: string)

  datatype Leg = Leg(distance: TextValue, duration: TextValue)
  datatype Route = Route(legs: seq<Leg>, overviewPolyline: string)
  /** `DirectionsResponse`; `routes` may be null when the JSON omits it. */
  datatype DirectionsBody = DirectionsBody(routes: Option<seq<Route>>, status: string)

  datatype RealDistanceResult = RealDistanceResult(
    distanceKm: real,
    distanceText: string,
    durationMinutes: int,
    durationText: string,
    polyline: Option<string>)

  const IntMin: int := -0x8000_0000
  const IntMax: int := 0x7fff_ffff

  predicate IsInt32(x: int) {
    IntMin <= x <= IntMax
  }

  /** Kotlin/Java `Int` division: the quotient is truncated toward zero. */
  function TruncDiv(a: int, b: int): int
    requires b > 0
  {
    if a >= 0 then a / b else -((-a) / b)
  }

  /** `value / 1000.0`. */
  function MetersToKm(meters: int): real {
    meters as real / 1000.0
  }

  /** `value / 60` on `Int` seconds. */
  function SecondsToMinutes(seconds: int): (m: int)
    ensures seconds >= 0 ==> 60 * m <= seconds < 60 * m + 60
    ensures seconds < 0 ==> 60 * m - 60 < seconds <= 60 * m
  {
    TruncDiv(seconds, 60)
  }

  /** `durationMinutes * 60` never overflows an `Int`, and for non-negative durations it is
      the duration rounded down to whole minutes. */
  lemma MinutesBackToSecondsFits(seconds: int)
    requires IsInt32(seconds)
    ensures IsInt32(SecondsToMinutes(seconds) * 60)
    ensures seconds >= 0 ==> seconds - 60 < SecondsToMinutes(seconds) * 60 <= seconds
  {
  }

  /** One Distance-Matrix element: a result only for status "OK" with both values present. */
  function DecodeElement(e: Element): (r: Option<RealDistanceResult>)
    ensures r.Some? <==> e.status == "OK" && e.distance.Some? && e.duration.Some?
    ensures r.Some? ==> && r.value.distanceKm * 1000.0 == e.distance.value.value as real
                        && r.value.durationMinutes == SecondsToMinutes(e.duration.value.value)
                        && r.value.polyline.None?
  {
    if e.status == "OK" && e.distance.Some? && e.duration.Some? then
      Some(RealDistanceResult(
        MetersToKm(e.distance.value.value),
        e.distance.value.text,
        SecondsToMinutes(e.duration.value.value),
        e.duration.value.text,
        None))
    else None
  }

  /** A call that carries a first row to decode. */
  predicate HasRows(call: HttpCall<MatrixBody>) {
    && call.Responded? && IsSuccessful(call.code) && call.body.Some?
    && call.body.value.rows.Some? && |call.body.value.rows.value| > 0
  }

  /** `getBatchDistances`: on a failed, row-less or throwing call, one null per destination;
      otherwise one entry per element of the first row, in order. */
  function GetBatchDistances(destinations: seq<LatLng>, call: HttpCall<MatrixBody>)
    : (r: seq<Option<RealDistanceResult>>)
    ensures !HasRows(call) ==> |r| == |destinations| && forall i :: 0 <= i < |r| ==> r[i].None?
    ensures HasRows(call) ==>
              var elements := call.body.value.rows.value[0].elements;
              && |r| == |elements|
              && forall i :: 0 <= i < |r| ==>
                   (r[i].Some? <==> elements[i].status == "OK" && elements[i].distance.Some? && elements[i].duration.Some?)
  {
    if HasRows(call) then Map(call.body.value.rows.value[0].elements, DecodeElement)
    else Map(destinations, _ => None)
  }

  /** Decoding is element-wise: changing one element of the answer changes only that entry. */
  lemma BatchIsolation(destinations: seq<LatLng>, code: int, row: seq<Element>, rest: seq<MatrixRow>,
                       status: string, i: nat, e: Element)
    requires IsSuccessful(code) && i < |row|
    ensures var before := GetBatchDistances(destinations, Responded(code, Some(MatrixBody(Some([MatrixRow(row)] + rest), status))));
            var after := GetBatchDistances(destinations, Responded(code, Some(MatrixBody(Some([MatrixRow(row[i := e])] + rest), status))));
            && |after| == |before|
            && after[i] == DecodeElement(e)
            && forall j :: 0 <= j < |before| && j != i ==> after[j] == before[j]
  {
  }

  /** `getRealDistance`: a result only for a successful call with a non-empty route list whose
      first route has a leg (an empty leg list throws and is caught). */
  function GetRealDistance(call: HttpCall<DirectionsBody>): (r: Option<RealDistanceResult>)
    ensures r.Some? <==> && call.Responded? && IsSuccessful(call.code) && call.body.Some?
                         && call.body.value.routes.Some? && |call.body.value.routes.value| > 0
                         && |call.body.value.routes.value[0].legs| > 0
    ensures r.Some? ==> var route := call.body.value.routes.value[0];
                        && r.value.distanceKm == MetersToKm(route.legs[0].distance.value)
                        && r.value.durationMinutes == SecondsToMinutes(route.legs[0].duration.value)
                        && r.value.polyline == Some(route.overviewPolyline)
  {
    if call.Responded? && IsSuccessful(call.code) && call.body.Some?
       && call.body.value.routes.Some? && |call.body.value.routes.value| > 0 then
      var route := call.body.value.routes.value[0];
      if |route.legs| == 0 then None
      else
        var leg := route.legs[0];
        Some(RealDistanceResult(
          MetersToKm(leg.distance.value),
          leg.distance.text,
          SecondsToMinutes(leg.duration.value),
          leg.duration.text,
          Some(route.overviewPolyline)))
    else None
  }

  /** The route call and a matrix element report one leg the same way: the same kilometres,
      minutes and texts for the same metres and seconds; only the route call carries a
      polyline. */
  lemma RouteAndMatrixAgree(code: int, distance: TextValue, duration: TextValue, polyline: string,
                            directionsStatus: string)
    requires IsSuccessful(code)
    ensures var route := GetRealDistance(Responded(code, Some(DirectionsBody(
                           Some([Route([Leg(distance, duration)], polyline)]), directionsStatus))));
            var element := DecodeElement(Element(Some(distance), Some(duration), "OK"));
            && route.Some? && element.Some?
            && route.value.(polyline := None) == element.value
            && route.value.polyline == Some(polyline)
  {
  }

  // The `destinations` request parameter

  /** `joinToString(sep)`. */
  function JoinWith(segments: seq<string>, sep: char): string {
    if |segments| == 0 then ""
    else if |segments| == 1 then segments[0]
    else segments[0] + [sep] + JoinWith(segments[1..], sep)
  }

  /** Splits at every `sep` (the inverse of `JoinWith` on separator-free segments). */
  function SplitOn(s: string, sep: char): (r: seq<string>)
    ensures |r| > 0
  {
    if |s| == 0 then [""]
    else
      var rest := SplitOn(s[1..], sep);
      if s[0] == sep then [""] + rest
      else [[s[0]] + rest[0]] + rest[1..]
  }

  lemma {:induction false} SplitPrefix(a: string, b: string, sep: char)
    requires sep !in a
    ensures SplitOn(a + [sep] + b, sep) == [a] + SplitOn(b, sep)
    ensures SplitOn(a, sep) == [a]
    decreases |a|
  {
    if |a| == 0 {
      assert a + [sep] + b == [sep] + b;
      assert ([sep] + b)[1..] == b;
    } else {
      SplitPrefix(a[1..], b, sep);
      assert (a + [sep] + b)[1..] == a[1..] + [sep] + b;
      assert [a[0]] + a[1..] == a;
    }
  }

  /** Joining separator-free segments and splitting again gives the segments back. */
  lemma {:induction false} SplitJoinRoundTrip(segments: seq<string>, sep: char)
    requires |segments| > 0
    requires forall i :: 0 <= i < |segments| ==> sep !in segments[i]
    ensures SplitOn(JoinWith(segments, sep), sep) == segments
    decreases |segments|
  {
    if |segments| == 1 {
      SplitPrefix(segments[0], "", sep);
    } else {
      SplitJoinRoundTrip(segments[1..], sep);
      SplitPrefix(segments[0], JoinWith(segments[1..], sep), sep);
    }
  }

  /** `"${lat},${lon}"`; `format` is Kotlin's `Double.toString`. */
  function PointParam(p: LatLng, format: real -> string): string {
    format(p.latitude) + "," + format(p.longitude)
  }

  /** The `destinations` parameter: one `lat,lon` segment per destination, joined by `|`. */
  function DestinationsParam(destinations: seq<LatLng>, format: real -> string): string {
    JoinWith(Map(destinations, p => PointParam(p, format)), '|')
  }

  /** Splitting the parameter at `|` yields exactly one segment per destination, in order. */
  lemma DestinationsParamSegments(destinations: seq<LatLng>, format: real -> string)
    requires |destinations| > 0
    requires forall x :: '|' !in format(x)
    ensures SplitOn(DestinationsParam(destinations, format), '|')
         == Map(destinations, p => PointParam(p, format))
  {
    var segs := Map(destinations, p => PointParam(p, format));
    forall i | 0 <= i < |segs| ensures '|' !in segs[i] {
      var p := destinations[i];
      assert segs[i] == format(p.latitude) + "," + format(p.longitude);
      assert '|' !in format(p.latitude) && '|' !in format(p.longitude);
    }
    SplitJoinRoundTrip(segs, '|');
  }
}

=== FILE: car_screen.dfy ===
/** The Android Auto screen (`FuelFinderCarScreen`): no radius or direction filter, the sort
    applied before truncation, a two-way sort toggle, the fuel cycle, and a template chosen by
    priority. The screen's mutable fields become a `CarState` value. */
module CarScreen {
  import opened Optional
  import opened Seqs
  import opened Sorting
  import opened Stations
  import opened Prefs
  import Geometry
  import ApiClient

  /** Android Auto lists at most six rows, and the screen never asks for more results. */
  const RowLimit: nat := 6

  /** The screen's sort mode; the source keeps it as the string "DISTANCE" or "PRICE". */
  datatype CarSort = ByDistance | ByPrice

  /** The selector `processStations` and `toggleSortMode` sort by. */
  function SortKeyOf(mode: CarSort): FuelStation -> SortKey {
    match mode
    case ByPrice => PriceKey
    case ByDistance => AirOrMaxKey
  }

  datatype CarState = CarState(
    currentLocation: Option<Location>,
    stations: seq<FuelStation>,
    isLoading: bool,
    fuel: FuelType,
    sortMode: CarSort)

  /** What the screen keeps true between events: at most six stations, in the order of the
      current sort mode. */
  ghost predicate CarInvariant(s: CarState) {
    |s.stations| <= RowLimit && SortedBy(s.stations, SortKeyOf(s.sortMode))
  }

  // ---------------------------------------------------------------------------------------
  // Settings

  /** `loadSettings`: the stored fuel if its value names a fuel kind, diesel otherwise. */
  function LoadFuel(store: Store): (f: FuelType)
    ensures FuelTypeFromValue(GetString(store, KeyFuelType, "gasolio")).Some? ==>
              f.Value() == GetString(store, KeyFuelType, "gasolio")
    ensures FuelTypeFromValue(GetString(store, KeyFuelType, "gasolio")).None? ==> f == Gasolio
  {
    var v := GetString(store, KeyFuelType, Gasolio.Value());
    var f := FuelTypeFromValue(v).GetOr(Gasolio);
    if FuelTypeFromValue(v).Some? then FuelTypeValueRoundTrip(f, v); f else f
  }

  /** The fuel saved through `saveSettings` is the fuel the car screen starts with. */
  lemma SavedFuelReachesCar(store: Store, lookAheadKm: int, maxResults: int, updateIntervalMin: int,
                            fuelType: FuelType, alongRouteMode: bool, useRealDistance: bool)
    ensures LoadFuel(SaveSettings(store, lookAheadKm, maxResults, updateIntervalMin, fuelType, alongRouteMode,
                                  useRealDistance)) == fuelType
  {
    SaveLoadRoundTrip(store, lookAheadKm, maxResults, updateIntervalMin, fuelType, alongRouteMode, useRealDistance);
  }

  /** The screen as created: no fix, no stations, the stored fuel, sorted by distance. */
  function InitialState(store: Store): (s: CarState)
    ensures CarInvariant(s) && !s.isLoading && s.sortMode == ByDistance && s.fuel == LoadFuel(store)
  {
    CarState(None, [], false, LoadFuel(store), ByDistance)
  }

  /** The result count of a search: the stored count (5 by default), but never above six. */
  function CarMaxResults(store: Store): (m: int)
    ensures m <= RowLimit
    ensures KeyMaxResults !in store ==> m == 5
    ensures GetInt(store, KeyMaxResults, 5) <= RowLimit ==> m == GetInt(store, KeyMaxResults, 5)
    ensures GetInt(store, KeyMaxResults, 5) > RowLimit ==> m == RowLimit
  {
    var stored := GetInt(store, KeyMaxResults, 5);
    if stored < 6 then stored else 6
  }

  // ---------------------------------------------------------------------------------------
  // Searching

  /** `searchStations`: without a fix nothing happens; otherwise the screen shows the loading
      template and the query is issued with the stored radius and twice the result count. */
  function SearchStations(s: CarState, store: Store): (r: (CarState, Option<NearbyQuery>))
    ensures s.currentLocation.None? ==> r == (s, None)
    ensures s.currentLocation.Some? ==>
              && r.0 == s.(isLoading := true)
              && r.1.Some?
              && r.1.value.latitude == s.currentLocation.value.latitude
              && r.1.value.longitude == s.currentLocation.value.longitude
              && r.1.value.results == 2 * CarMaxResults(store)
              && r.1.value.distanceKm == GetInt(store, KeyLookAheadKm, 10)
              && r.1.value.fuel == s.fuel.Value()
  {
    match s.currentLocation
    case None => (s, None)
    case Some(loc) =>
      (s.(isLoading := true),
       Some(NearbyQuery(loc.latitude, loc.longitude, GetInt(store, KeyLookAheadKm, 10), s.fuel.Value(),
                        CarMaxResults(store) * 2)))
  }

  /** `updateLocation`: without the location permission, or when the platform has no last fix,
      nothing happens; otherwise the fix becomes the screen's location and a search starts. */
  function UpdateLocation(s: CarState, store: Store, permitted: bool, lastFix: Option<Location>)
    : (r: (CarState, Option<NearbyQuery>))
    ensures !permitted || lastFix.None? ==> r == (s, None)
    ensures permitted && lastFix.Some? ==>
              && r.0 == s.(currentLocation := lastFix, isLoading := true)
              && r.1.Some?
              && r.1.value.latitude == lastFix.value.latitude
              && r.1.value.longitude == lastFix.value.longitude
              && r.1.value.fuel == s.fuel.Value()
  {
    if !permitted then (s, None)
    else match lastFix
      case None => (s, None)
      case Some(loc) => SearchStations(s.(currentLocation := Some(loc)), store)
  }

  /** The screen as created, given a fix, shows the loading template and asks for twice the
      capped result count of the stored fuel around that fix; without a fix it stays empty. */
  lemma StartupSearch(store: Store, permitted: bool, lastFix: Option<Location>)
    ensures var r := UpdateLocation(InitialState(store), store, permitted, lastFix);
            if permitted && lastFix.Some? then
              && OnGetTemplate(r.0).LoadingTemplate?
              && r.1.Some? && r.1.value.fuel == LoadFuel(store).Value()
              && r.1.value.results <= 2 * RowLimit
              && (KeyMaxResults !in store ==> r.1.value.results == 10)
            else
              OnGetTemplate(r.0).EmptyTemplate? && r.1.None?
  {
    var r := UpdateLocation(InitialState(store), store, permitted, lastFix);
    if permitted && lastFix.Some? {
      assert r.1.value.results == 2 * CarMaxResults(store);
    }
  }

  /** `processStations`: every complete record, sorted by the current mode, then truncated. */
  function ProcessStations(t: Geometry.Trig, dtos: seq<DistributorDto>, loc: Location, fuel: FuelType,
                           mode: CarSort, maxResults: nat): (r: seq<FuelStation>)
    ensures var all := Ingest(t, dtos, LocationPoint(loc), fuel.Value(), None);
            && |r| == (if maxResults < |all| then maxResults else |all|)
            && multiset(r) <= multiset(all)
    ensures SortedBy(r, SortKeyOf(mode))
  {
    var all := Ingest(t, dtos, LocationPoint(loc), fuel.Value(), None);
    SortBySorted(all, SortKeyOf(mode));
    SortedPrefix(SortBy(all, SortKeyOf(mode)), if maxResults < |all| then maxResults else |all|, SortKeyOf(mode));
    Take(SortBy(all, SortKeyOf(mode)), maxResults)
  }

  /** Truncation comes after the mode's sort: in price mode the cheapest stations are kept,
      in distance mode the nearest; a station left out never beats one kept. */
  lemma CarKeepsBest(t: Geometry.Trig, dtos: seq<DistributorDto>, loc: Location, fuel: FuelType, mode: CarSort,
                     maxResults: nat, x: FuelStation, y: FuelStation)
    requires x in Ingest(t, dtos, LocationPoint(loc), fuel.Value(), None)
    requires x !in ProcessStations(t, dtos, loc, fuel, mode, maxResults)
    requires y in ProcessStations(t, dtos, loc, fuel, mode, maxResults)
    ensures KeyLe(SortKeyOf(mode)(y), SortKeyOf(mode)(x))
  {
    TopNKeepsSmallest(Ingest(t, dtos, LocationPoint(loc), fuel.Value(), None), SortKeyOf(mode), maxResults, x, y);
  }

  /** The callbacks of `searchStations`. A failure or an HTTP error keeps the old list; a
      successful answer replaces it (even with an empty one); either way loading ends. A
      negative result count makes `take` throw, shown as no next state. */
  function OnSearchResult(t: Geometry.Trig, s: CarState, loc: Location, maxResults: int, outcome: FetchOutcome)
    : (r: Option<CarState>)
    ensures r.None? <==> outcome.Answered? && ApiClient.IsSuccessful(outcome.code) && maxResults < 0
    ensures r.Some? ==> !r.value.isLoading && r.value.sortMode == s.sortMode && r.value.fuel == s.fuel
                        && r.value.currentLocation == s.currentLocation
    ensures r.Some? && !(outcome.Answered? && ApiClient.IsSuccessful(outcome.code)) ==> r.value.stations == s.stations
    ensures r.Some? && outcome.Answered? && ApiClient.IsSuccessful(outcome.code) ==>
              && maxResults >= 0
              && r.value.stations == ProcessStations(t, outcome.body.GetOr([]), loc, s.fuel, s.sortMode, maxResults)
              && |r.value.stations| <= maxResults
              && SortedBy(r.value.stations, SortKeyOf(s.sortMode))
              && multiset(r.value.stations)
                 <= multiset(Ingest(t, outcome.body.GetOr([]), LocationPoint(loc), s.fuel.Value(), None))
  {
    match outcome
    case NetworkFailure => Some(s.(isLoading := false))
    case Answered(code, body) =>
      if !ApiClient.IsSuccessful(code) then Some(s.(isLoading := false))
      else if maxResults < 0 then None
      else Some(s.(stations := ProcessStations(t, body.GetOr([]), loc, s.fuel, s.sortMode, maxResults),
                   isLoading := false))
  }

  /** A search answered with the count the screen asked for keeps the screen invariant. */
  lemma SearchKeepsInvariant(t: Geometry.Trig, s: CarState, store: Store, loc: Location, outcome: FetchOutcome)
    requires CarInvariant(s)
    requires OnSearchResult(t, s, loc, CarMaxResults(store), outcome).Some?
    ensures CarInvariant(OnSearchResult(t, s, loc, CarMaxResults(store), outcome).value)
  {
  }

  // ---------------------------------------------------------------------------------------
  // Toggles

  function Toggled(mode: CarSort): CarSort {
    match mode
    case ByDistance => ByPrice
    case ByPrice => ByDistance
  }

  /** `toggleSortMode`: the other mode, and the same stations stably re-sorted by it. */
  function ToggleSortMode(s: CarState): (r: CarState)
    ensures r.sortMode != s.sortMode && r.sortMode == Toggled(s.sortMode)
    ensures multiset(r.stations) == multiset(s.stations) && |r.stations| == |s.stations|
    ensures SortedBy(r.stations, SortKeyOf(r.sortMode))
    ensures forall k :: SameKey(r.stations, SortKeyOf(r.sortMode), k) == SameKey(s.stations, SortKeyOf(r.sortMode), k)
    ensures r == s.(sortMode := r.sortMode, stations := r.stations)
  {
    var mode := Toggled(s.sortMode);
    SortByIsStableSort(s.stations, SortKeyOf(mode));
    s.(sortMode := mode, stations := SortBy(s.stations, SortKeyOf(mode)))
  }

  /** Toggling keeps the screen invariant; toggling twice restores the mode and the stations,
      though not necessarily their order among equal keys. */
  lemma ToggleKeepsInvariant(s: CarState)
    requires CarInvariant(s)
    ensures CarInvariant(ToggleSortMode(s))
    ensures ToggleSortMode(ToggleSortMode(s)).sortMode == s.sortMode
    ensures multiset(ToggleSortMode(ToggleSortMode(s)).stations) == multiset(s.stations)
  {
  }

  /** Toggling twice can reorder stations that tie on the current key: two stations at the same
      distance, listed cheaper-last, come back cheaper-first. */
  lemma ToggleTwiceCanReorderTies(a: FuelStation, b: FuelStation)
    requires a.airDistanceKm == b.airDistanceKm && FirstPrice(a) == Some(2.0) && FirstPrice(b) == Some(1.0)
    ensures var s := CarState(None, [a, b], false, Gasolio, ByDistance);
            CarInvariant(s) && ToggleSortMode(ToggleSortMode(s)).stations == [b, a]
  {
    var s := CarState(None, [a, b], false, Gasolio, ByDistance);
    assert KeyLe(AirOrMaxKey(a), AirOrMaxKey(b)) && KeyLe(AirOrMaxKey(b), AirOrMaxKey(a));
    assert !KeyLe(PriceKey(a), PriceKey(b));
    SortTwo(a, b, PriceKey);
    var s1 := s.(sortMode := ByPrice, stations := [b, a]);
    assert ToggleSortMode(s) == s1;
    SortTwo(b, a, AirOrMaxKey);
    assert ToggleSortMode(s1).stations == [b, a];
  }

  /** `cycleFuelType`: diesel, petrol, LPG, methane, and round again. */
  function CycleFuelType(f: FuelType): (g: FuelType)
    ensures g != f
  {
    match f
    case Gasolio => Benzina
    case Benzina => Gpl
    case Gpl => Metano
    case Metano => Gasolio
  }

  /** The cycle visits every fuel kind and returns after four steps. */
  lemma CycleFuelTypeOrbit(f: FuelType)
    ensures CycleFuelType(CycleFuelType(CycleFuelType(CycleFuelType(f)))) == f
    ensures {f, CycleFuelType(f), CycleFuelType(CycleFuelType(f)), CycleFuelType(CycleFuelType(CycleFuelType(f)))}
            == {Gasolio, Benzina, Gpl, Metano}
  {
  }

  /** `getFuelLabel`. */
  function FuelLabel(f: FuelType): string {
    match f
    case Gasolio => "Diesel"
    case Benzina => "Benzina"
    case Gpl => "GPL"
    case Metano => "Metano"
  }

  /** Each fuel kind has its own label. */
  lemma FuelLabelInjective(f: FuelType, g: FuelType)
    ensures FuelLabel(f) == FuelLabel(g) ==> f == g
  {
  }

  // ---------------------------------------------------------------------------------------
  // Template

  datatype CarTemplate =
    | LoadingTemplate
    | EmptyTemplate
    | ListTemplate(rows: seq<FuelStation>, sortActionTitle: string, fuelActionTitle: string)

  /** `onGetTemplate`: loading wins over empty, empty over the list; the list shows at most six
      rows and offers the other sort mode and the current fuel. */
  function OnGetTemplate(s: CarState): (tpl: CarTemplate)
    ensures tpl.LoadingTemplate? <==> s.isLoading
    ensures tpl.EmptyTemplate? <==> !s.isLoading && s.stations == []
    ensures tpl.ListTemplate? ==>
              && |tpl.rows| == (if |s.stations| < RowLimit then |s.stations| else RowLimit)
              && tpl.rows <= s.stations
              && tpl.sortActionTitle == (if s.sortMode == ByDistance then "Prezzo" else "Distanza")
              && tpl.fuelActionTitle == FuelLabel(s.fuel)
  {
    if s.isLoading then LoadingTemplate
    else if s.stations == [] then EmptyTemplate
    else ListTemplate(Take(s.stations, RowLimit), if s.sortMode == ByDistance then "Prezzo" else "Distanza",
                      FuelLabel(s.fuel))
  }

  /** The six-row cut of the template never hides a station: the screen keeps at most six, so
      a list template shows all of them, in the current sort order. */
  lemma TemplateShowsAll(s: CarState)
    requires CarInvariant(s) && !s.isLoading && s.stations != []
    ensures OnGetTemplate(s).ListTemplate?
    ensures OnGetTemplate(s).rows == s.stations
    ensures SortedBy(OnGetTemplate(s).rows, SortKeyOf(s.sortMode))
  {
  }

  /** After a successful answer to a search with the screen's own result count, the template
      shows exactly the stations `processStations` kept; a negative stored count has no next
      state. */
  lemma SearchThenTemplate(t: Geometry.Trig, s: CarState, store: Store, loc: Location, body: seq<DistributorDto>)
    ensures var r := OnSearchResult(t, s, loc, CarMaxResults(store), Answered(200, Some(body)));
            if CarMaxResults(store) < 0 then r.None?
            else
              && r.Some?
              && var kept := ProcessStations(t, body, loc, s.fuel, s.sortMode, CarMaxResults(store));
                 && (kept == [] ==> OnGetTemplate(r.value).EmptyTemplate?)
                 && (kept != [] ==> OnGetTemplate(r.value).ListTemplate? && OnGetTemplate(r.value).rows == kept)
  {
  }
}

=== FILE: decimal.dfy ===
/** Kotlin's decimal rendering of integers in string templates (`"${n}"`), with its inverse. */
module Decimal {

  predicate IsDigit(c: char) {
    '0' <= c <= '9'
  }

  function DigitChar(d: nat): (c: char)
    requires d < 10
    ensures IsDigit(c)
  {
    "0123456789"[d]
  }

  function DigitValue(c: char): (d: nat)
    requires IsDigit(c)
    ensures d < 10
  {
    (c as int - '0' as int)
  }

  /** Decimal digits of `n`, most significant first, no leading zeros. */
  function NatToString(n: nat): (s: string)
    ensures |s| > 0
    ensures forall i :: 0 <= i < |s| ==> IsDigit(s[i])
    decreases n
  {
    if n < 10 then [DigitChar(n)] else NatToString(n / 10) + [DigitChar(n % 10)]
  }

  /** Kotlin `Int.toString()` / `Long.toString()`: a minus sign before negative values. */
  function IntToString(i: int): (s: string)
    ensures |s| > 0
  {
    if i < 0 then "-" + NatToString(-i) else NatToString(i)
  }

  /** Reads a string of decimal digits back as a number. */
  function ParseNat(s: string): nat
    requires forall i :: 0 <= i < |s| ==> IsDigit(s[i])
  {
    if |s| == 0 then 0 else 10 * ParseNat(s[..|s| - 1]) + DigitValue(s[|s| - 1])
  }

  /** `ParseNat` undoes `NatToString`. */
  lemma {:induction false} NatToStringRoundTrip(n: nat)
    ensures ParseNat(NatToString(n)) == n
    decreases n
  {
    if n >= 10 {
      var s := NatToString(n);
      NatToStringRoundTrip(n / 10);
      assert s[..|s| - 1] == NatToString(n / 10);
    }
  }

  predicate AllDigits(s: string) {
    forall k :: 0 <= k < |s| ==> IsDigit(s[k])
  }

  /** Reads a minus sign and digits, or digits, back as an integer (0 for anything else). */
  function ParseInt(s: string): int {
    if |s| > 0 && s[0] == '-' && AllDigits(s[1..]) then -(ParseNat(s[1..]) as int)
    else if AllDigits(s) then ParseNat(s)
    else 0
  }

  /** `ParseInt` undoes `IntToString`. */
  lemma {:induction false} IntToStringRoundTrip(i: int)
    ensures ParseInt(IntToString(i)) == i
  {
    var s := IntToString(i);
    if i < 0 {
      var t := NatToString(-i);
      assert s == "-" + t;
      assert s[1..] == t;
      assert AllDigits(t);
      NatToStringRoundTrip(-i);
    } else {
      assert s == NatToString(i);
      assert AllDigits(s);
      assert s[0] != '-' by {
        assert IsDigit(s[0]);
      }
      NatToStringRoundTrip(i);
    }
  }

  /** Different integers render differently. */
  lemma IntToStringInjective(i: int, j: int)
    ensures IntToString(i) == IntToString(j) ==> i == j
  {
    IntToStringRoundTrip(i);
    IntToStringRoundTrip(j);
  }
}

=== FILE: geometry.dfy ===
/** Local-plane and spherical geometry of the station filters. The floating-point functions of
    `kotlin.math` are parameters: the model never inspects their values, so every property
    proved here holds whatever `sin`, `cos`, `atan2` and `sqrt` return. */
module Geometry {

  /** `kotlin.math.sin`, `cos`, `atan2(y, x)` and `sqrt`. */
  datatype Trig = Trig(sin: real -> real, cos: real -> real, atan2: (real, real) -> real, sqrt: real -> real)

  const EarthRadiusKm: real := 6371.0
  const Pi: real := 3.141592653589793

  datatype LatLng = LatLng(latitude: real, longitude: real)

  /** A displacement in the local plane: kilometres east and north. */
  datatype Vec = Vec(east: real, north: real)

  function Abs(x: real): (r: real)
    ensures r >= 0.0 && (r == x || r == -x)
  {
    if x < 0.0 then -x else x
  }

  /** `Math.toRadians`. */
  function ToRadians(deg: real): real {
    deg * (Pi / 180.0)
  }

  /** `Math.toDegrees`. */
  function ToDegrees(rad: real): real {
    rad * (180.0 / Pi)
  }

  /** Great-circle distance by the haversine formula on a sphere of radius 6371 km. */
  function HaversineKm(t: Trig, a: LatLng, b: LatLng): real {
    var dLat := ToRadians(b.latitude - a.latitude);
    var dLon := ToRadians(b.longitude - a.longitude);
    var h := t.sin(dLat / 2.0) * t.sin(dLat / 2.0)
           + t.cos(ToRadians(a.latitude)) * t.cos(ToRadians(b.latitude))
             * t.sin(dLon / 2.0) * t.sin(dLon / 2.0);
    var c := 2.0 * t.atan2(t.sqrt(h), t.sqrt(1.0 - h));
    EarthRadiusKm * c
  }

  /** Heading as a unit vector: 0 degrees is north, 90 degrees is east. */
  function BearingToUnitVector(t: Trig, bearingDeg: real): Vec {
    var rad := ToRadians(bearingDeg);
    Vec(t.sin(rad), t.cos(rad))
  }

  /** Equirectangular projection of `p` around `origin`, in km. */
  function ToLocalENKm(t: Trig, origin: LatLng, p: LatLng): (v: Vec)
    ensures p == origin ==> v == Vec(0.0, 0.0)
  {
    var lat0 := ToRadians(origin.latitude);
    var dLat := ToRadians(p.latitude - origin.latitude);
    var dLon := ToRadians(p.longitude - origin.longitude);
    Vec(dLon * EarthRadiusKm * t.cos(lat0), dLat * EarthRadiusKm)
  }

  /** Component of `v` along `dir` (dot product). */
  function Along(v: Vec, dir: Vec): real {
    v.east * dir.east + v.north * dir.north
  }

  /** Signed component of `v` across `dir` (to the left of the heading is positive). */
  function Across(v: Vec, dir: Vec): real {
    v.east * (-dir.north) + v.north * dir.east
  }

  /** Kilometres "ahead" of the user along the heading. */
  function ProjectToDirectionKm(t: Trig, origin: LatLng, p: LatLng, dir: Vec): real {
    Along(ToLocalENKm(t, origin, p), dir)
  }

  /** Lateral distance from the line of travel: never negative, and the magnitude of the
      across-track component. */
  function CrossTrackKm(t: Trig, origin: LatLng, p: LatLng, dir: Vec): (r: real)
    ensures r >= 0.0
    ensures r * r == Across(ToLocalENKm(t, origin, p), dir) * Across(ToLocalENKm(t, origin, p), dir)
  {
    Abs(Across(ToLocalENKm(t, origin, p), dir))
  }

  /** Along and across components split a displacement orthogonally: for a unit heading,
      along^2 + across^2 is the squared length of the displacement. */
  lemma AlongAcrossPythagoras(v: Vec, dir: Vec)
    requires dir.east * dir.east + dir.north * dir.north == 1.0
    ensures Along(v, dir) * Along(v, dir) + Across(v, dir) * Across(v, dir)
         == v.east * v.east + v.north * v.north
  {
    var a, b, c, d := v.east, v.north, dir.east, dir.north;
    calc {
      (a * c + b * d) * (a * c + b * d) + (a * -d + b * c) * (a * -d + b * c);
      a * a * (c * c + d * d) + b * b * (c * c + d * d);
      a * a + b * b;
    }
  }

  /** Reversing the heading negates the forward projection and keeps the cross-track distance. */
  lemma ReverseHeading(t: Trig, origin: LatLng, p: LatLng, dir: Vec)
    ensures ProjectToDirectionKm(t, origin, p, Vec(-dir.east, -dir.north))
         == -ProjectToDirectionKm(t, origin, p, dir)
    ensures CrossTrackKm(t, origin, p, Vec(-dir.east, -dir.north)) == CrossTrackKm(t, origin, p, dir)
  {
  }

  // ---------------------------------------------------------------------------------------
  // Angle normalisation: `while (x > 180) x -= 360; while (x < -180) x += 360`

  /** `d` is a whole number of turns. */
  predicate IsWholeTurns(d: real) {
    (d / 360.0).Floor as real == d / 360.0
  }

  lemma WholeTurnsStep(d: real)
    ensures IsWholeTurns(d) <==> IsWholeTurns(d + 360.0)
  {
    assert (d + 360.0) / 360.0 == d / 360.0 + 1.0;
    assert ((d + 360.0) / 360.0).Floor == (d / 360.0).Floor + 1;
  }

  /** The first loop. */
  function NormDown(x: real): (r: real)
    ensures r <= 180.0
    ensures x > 180.0 ==> r > -180.0
    ensures x <= 180.0 ==> r == x
    ensures IsWholeTurns(r - x)
    decreases if x > 180.0 then (x - 180.0).Floor + 1 else 0
  {
    if x > 180.0 then
      var r := NormDown(x - 360.0);
      WholeTurnsStep(r - x);
      r
    else
      IsWholeTurnsZero();
      x
  }

  /** The second loop. */
  function NormUp(x: real): (r: real)
    ensures r >= -180.0
    ensures x < -180.0 ==> r < 180.0
    ensures x >= -180.0 ==> r == x
    ensures IsWholeTurns(r - x)
    decreases if x < -180.0 then (-180.0 - x).Floor + 1 else 0
  {
    if x < -180.0 then
      var r := NormUp(x + 360.0);
      WholeTurnsStep(r - (x + 360.0));
      r
    else
      IsWholeTurnsZero();
      x
  }

  lemma IsWholeTurnsZero()
    ensures IsWholeTurns(0.0)
  {
  }

  /** `normalizeAngleDeg`: an angle in [-180, 180] a whole number of turns from the input. */
  function NormalizeAngle(a: real): (r: real)
    ensures -180.0 <= r <= 180.0
    ensures IsWholeTurns(r - a)
  {
    var d := NormDown(a);
    var r := NormUp(d);
    WholeTurnsAdd(r - d, d - a);
    r
  }

  lemma WholeTurnsAdd(x: real, y: real)
    requires IsWholeTurns(x) && IsWholeTurns(y)
    ensures IsWholeTurns(x + y)
  {
    var m, n := (x / 360.0).Floor, (y / 360.0).Floor;
    assert x / 360.0 == m as real && y / 360.0 == n as real;
    assert (x + y) / 360.0 == x / 360.0 + y / 360.0;
    assert ((m + n) as real).Floor == m + n;
  }

  /** The loops of `normalizeAngleDeg` as written. */
  method NormalizeAngleDeg(a: real) returns (x: real)
    ensures -180.0 <= x <= 180.0
    ensures IsWholeTurns(x - a)
    ensures x == NormalizeAngle(a)
  {
    IsWholeTurnsZero();
    x := a;
    while x > 180.0
      invariant IsWholeTurns(x - a)
      invariant NormDown(x) == NormDown(a)
      decreases (x - 180.0).Floor + 1
    {
      WholeTurnsStep(x - 360.0 - a);
      x := x - 360.0;
    }
    while x < -180.0
      invariant x <= 180.0
      invariant IsWholeTurns(x - a)
      invariant NormUp(x) == NormalizeAngle(a)
      decreases (-180.0 - x).Floor + 1
    {
      WholeTurnsStep(x - a);
      x := x + 360.0;
    }
  }

  /** Angles already in [-180, 180] are left alone, and only those. */
  lemma NormalizeAngleFixesRange(a: real)
    ensures NormalizeAngle(a) == a <==> -180.0 <= a <= 180.0
  {
  }

  /** Normalising twice is normalising once. */
  lemma NormalizeAngleIdempotent(a: real)
    ensures NormalizeAngle(NormalizeAngle(a)) == NormalizeAngle(a)
  {
    NormalizeAngleFixesRange(NormalizeAngle(a));
  }

  lemma {:induction false} NormUpNegatesNormDown(x: real)
    ensures NormUp(-x) == -NormDown(x)
    decreases if x > 180.0 then (x - 180.0).Floor + 1 else 0
  {
    if x > 180.0 {
      NormUpNegatesNormDown(x - 360.0);
    }
  }

  /** Normalisation commutes with negation: the angular difference is symmetric. */
  lemma NormalizeAngleOdd(a: real)
    ensures NormalizeAngle(-a) == -NormalizeAngle(a)
  {
    if a > 180.0 {
      NormUpNegatesNormDown(a);
    } else if a < -180.0 {
      NormUpNegatesNormDown(-a);
    }
  }

  /** |normalised difference|: the unsigned angle between two headings, in [0, 180]. */
  function AngularDifferenceDeg(target: real, bearing: real): (r: real)
    ensures 0.0 <= r <= 180.0
  {
    Abs(NormalizeAngle(target - bearing))
  }

  /** The angle between two headings does not depend on which one is the reference. */
  lemma AngularDifferenceSymmetric(a: real, b: real)
    ensures AngularDifferenceDeg(a, b) == AngularDifferenceDeg(b, a)
  {
    NormalizeAngleOdd(a - b);
    assert b - a == -(a - b);
  }

  /** Phone screen: planar bearing to `p` (`atan2(east, north)`) compared with the heading. */
  function AngleToPointDeg(t: Trig, origin: LatLng, p: LatLng, bearingDeg: real): (r: real)
    ensures 0.0 <= r <= 180.0
  {
    var v := ToLocalENKm(t, origin, p);
    AngularDifferenceDeg(ToDegrees(t.atan2(v.east, v.north)), bearingDeg)
  }

  /** Widget: spherical initial bearing to `p` compared with the heading. */
  function SphericalAngleToPoint(t: Trig, origin: LatLng, p: LatLng, bearingDeg: real): (r: real)
    ensures 0.0 <= r <= 180.0
  {
    var dLon := ToRadians(p.longitude - origin.longitude);
    var lat1 := ToRadians(origin.latitude);
    var lat2 := ToRadians(p.latitude);
    var y := t.sin(dLon) * t.cos(lat2);
    var x := t.cos(lat1) * t.sin(lat2) - t.sin(lat1) * t.cos(lat2) * t.cos(dLon);
    AngularDifferenceDeg(ToDegrees(t.atan2(y, x)), bearingDeg)
  }
}

=== FILE: optional.dfy ===
/** Kotlin's nullable values (`T?`) and the elvis operator `?:`. */
module Optional {

  datatype Option<+T> = None | Some(value: T) {

    /** `x ?: default` */
    function GetOr(default: T): T {
      match this
      case Some(v) => v
      case None => default
    }
  }
}

=== FILE: phone_screen.dfy ===
/** The phone screen (`MainActivity`): the bearing memory, the three ways a station list is
    selected (ahead-of-you corridor, 360 degrees, and the fallback between them), the display
    sort, the air-distance refresh on every GPS fix, the batched route-distance merge, and the
    screen's state transitions. Timers, markers, toasts and the map are not modelled. */
module PhoneScreen {
  import opened Optional
  import opened Seqs
  import opened Sorting
  import opened Geometry
  import opened Stations
  import ApiClient
  import Prefs

  /** Lateral half-width of the corridor, km. */
  const CorridorKm: real := 3.0
  /** Widest angle between the heading and a station still counted as "ahead", degrees. */
  const AheadMaxAngleDeg: real := 70.0
  /** A GPS heading is trusted only when its accuracy is at most this many degrees. */
  const BearingAccMaxDeg: real := 45.0
  /** A station must be strictly more than this many km ahead. */
  const MinAheadKm: real := 0.5
  /** Destinations per Distance-Matrix request. */
  const RouteBatchSize: nat := 10

  datatype SortMode = Price | Distance

  // ---------------------------------------------------------------------------------------
  // Bearing memory

  /** The fix carries a heading accurate enough to use. */
  predicate IsReliableBearing(loc: Location) {
    loc.hasBearing && loc.bearingAccuracyDegrees <= BearingAccMaxDeg
  }

  /** The memory after one fix: overwritten by a reliable heading, otherwise untouched. */
  function RememberBearing(lastGood: Option<real>, loc: Location): Option<real> {
    if IsReliableBearing(loc) then Some(loc.bearing) else lastGood
  }

  /** Reference definition: the heading of the most recent reliable fix of `history`, or
      `initial` when no fix of it was reliable. */
  function LastReliableBearing(history: seq<Location>, initial: Option<real>): Option<real>
    decreases |history|
  {
    if |history| == 0 then initial
    else if IsReliableBearing(history[|history| - 1]) then Some(history[|history| - 1].bearing)
    else LastReliableBearing(history[..|history| - 1], initial)
  }

  /** The heading route mode uses for the current fix: its own when reliable, else the memory. */
  function BearingForRouteMode(loc: Location, lastGood: Option<real>): (b: Option<real>)
    ensures b.None? <==> !IsReliableBearing(loc) && lastGood.None?
    ensures b.Some? && b != lastGood ==> IsReliableBearing(loc) && b.value == loc.bearing
  {
    if IsReliableBearing(loc) then Some(loc.bearing) else lastGood
  }

  /** Taking one fix off the front of the history is the same as starting from the memory that
      fix leaves behind. */
  lemma {:induction false} LastReliableCons(l: Location, rest: seq<Location>, initial: Option<real>)
    ensures LastReliableBearing([l] + rest, initial) == LastReliableBearing(rest, RememberBearing(initial, l))
    decreases |rest|
  {
    var h := [l] + rest;
    if |rest| > 0 && !IsReliableBearing(rest[|rest| - 1]) {
      assert h[..|h| - 1] == [l] + rest[..|rest| - 1];
      LastReliableCons(l, rest[..|rest| - 1], initial);
    }
  }

  // ---------------------------------------------------------------------------------------
  // Selection in route mode: "ahead of you", inside a corridor

  /** The four tests of the corridor filter, for the heading `bearingDeg` seen from `origin`. */
  predicate InCorridor(t: Trig, origin: LatLng, bearingDeg: real, lookAheadKm: int, s: FuelStation) {
    var dir := BearingToUnitVector(t, bearingDeg);
    var p := StationPoint(s);
    && MinAheadKm < ProjectToDirectionKm(t, origin, p, dir) <= lookAheadKm as real
    && CrossTrackKm(t, origin, p, dir) <= CorridorKm
    && AngleToPointDeg(t, origin, p, bearingDeg) <= AheadMaxAngleDeg
  }

  /** Distance ahead along the heading, the order of the corridor list. */
  function AheadKey(t: Trig, origin: LatLng, bearingDeg: real): FuelStation -> SortKey {
    s => Num(ProjectToDirectionKm(t, origin, StationPoint(s), BearingToUnitVector(t, bearingDeg)))
  }

  function CorridorStations(t: Trig, origin: LatLng, bearingDeg: real, lookAheadKm: int, all: seq<FuelStation>)
    : seq<FuelStation>
  {
    Filter(all, s => InCorridor(t, origin, bearingDeg, lookAheadKm, s))
  }

  /** The corridor stations, nearest-ahead first, at most `maxResults` of them. */
  function FilterAlongDirection(t: Trig, origin: LatLng, bearingDeg: real, lookAheadKm: int,
                                maxResults: nat, all: seq<FuelStation>): (r: seq<FuelStation>)
    ensures |r| <= maxResults
    ensures var n := |CorridorStations(t, origin, bearingDeg, lookAheadKm, all)|;
            |r| == if maxResults <= n then maxResults else n
    ensures multiset(r) <= multiset(all)
    ensures forall i :: 0 <= i < |r| ==> InCorridor(t, origin, bearingDeg, lookAheadKm, r[i])
    ensures SortedBy(r, AheadKey(t, origin, bearingDeg))
  {
    var inside := CorridorStations(t, origin, bearingDeg, lookAheadKm, all);
    var sorted := SortBy(inside, AheadKey(t, origin, bearingDeg));
    SortBySorted(inside, AheadKey(t, origin, bearingDeg));
    SortedPrefix(sorted, if maxResults < |sorted| then maxResults else |sorted|, AheadKey(t, origin, bearingDeg));
    CorridorOnly(t, origin, bearingDeg, lookAheadKm, all, Take(sorted, maxResults));
    Take(sorted, maxResults)
  }

  lemma CorridorOnly(t: Trig, origin: LatLng, bearingDeg: real, lookAheadKm: int,
                     all: seq<FuelStation>, r: seq<FuelStation>)
    requires multiset(r) <= multiset(CorridorStations(t, origin, bearingDeg, lookAheadKm, all))
    ensures forall i :: 0 <= i < |r| ==> InCorridor(t, origin, bearingDeg, lookAheadKm, r[i])
  {
    var inside := CorridorStations(t, origin, bearingDeg, lookAheadKm, all);
    forall i | 0 <= i < |r| ensures InCorridor(t, origin, bearingDeg, lookAheadKm, r[i]) {
      assert r[i] in multiset(r);
      FilterMembership(all, s => InCorridor(t, origin, bearingDeg, lookAheadKm, s), r[i]);
    }
  }

  /** A corridor station the limit leaves out is no nearer ahead than any station kept. */
  lemma FilterAlongDirectionKeepsNearest(t: Trig, origin: LatLng, bearingDeg: real, lookAheadKm: int,
                                         maxResults: nat, all: seq<FuelStation>, x: FuelStation, y: FuelStation)
    requires x in all && InCorridor(t, origin, bearingDeg, lookAheadKm, x)
    requires x !in FilterAlongDirection(t, origin, bearingDeg, lookAheadKm, maxResults, all)
    requires y in FilterAlongDirection(t, origin, bearingDeg, lookAheadKm, maxResults, all)
    ensures var dir := BearingToUnitVector(t, bearingDeg);
            ProjectToDirectionKm(t, origin, StationPoint(y), dir) <= ProjectToDirectionKm(t, origin, StationPoint(x), dir)
  {
    var key := AheadKey(t, origin, bearingDeg);
    var inside := CorridorStations(t, origin, bearingDeg, lookAheadKm, all);
    FilterMembership(all, s => InCorridor(t, origin, bearingDeg, lookAheadKm, s), x);
    TopNKeepsSmallest(inside, key, maxResults, x, y);
  }

  /** When the corridor holds no more than `maxResults` stations, every one of them is listed. */
  lemma FilterAlongDirectionKeepsAllWhenFew(t: Trig, origin: LatLng, bearingDeg: real, lookAheadKm: int,
                                            maxResults: nat, all: seq<FuelStation>)
    requires |CorridorStations(t, origin, bearingDeg, lookAheadKm, all)| <= maxResults
    ensures forall x :: x in all && InCorridor(t, origin, bearingDeg, lookAheadKm, x) ==>
              x in FilterAlongDirection(t, origin, bearingDeg, lookAheadKm, maxResults, all)
  {
    var inside := CorridorStations(t, origin, bearingDeg, lookAheadKm, all);
    var r := FilterAlongDirection(t, origin, bearingDeg, lookAheadKm, maxResults, all);
    assert r == SortBy(inside, AheadKey(t, origin, bearingDeg));
    forall x | x in all && InCorridor(t, origin, bearingDeg, lookAheadKm, x) ensures x in r {
      FilterMembership(all, s => InCorridor(t, origin, bearingDeg, lookAheadKm, s), x);
      assert x in multiset(r);
    }
  }

  /** What route mode shows, and whether it had to announce the 360-degree fallback. */
  datatype Selection = Selection(stations: seq<FuelStation>, directionNotice: bool)

  /** Route mode with fallback: without a fix, everything; without a usable heading, everything
      plus the notice; otherwise the corridor list. */
  function FilterAlongDirectionWithFallback(t: Trig, all: seq<FuelStation>, currentLocation: Option<Location>,
                                            lastGood: Option<real>, lookAheadKm: int, maxResults: nat)
    : (r: Selection)
    ensures r.directionNotice <==> currentLocation.Some? && BearingForRouteMode(currentLocation.value, lastGood).None?
    ensures currentLocation.None? || r.directionNotice ==> r.stations == all
    ensures currentLocation.Some? && !r.directionNotice ==>
              var loc := currentLocation.value;
              var b := BearingForRouteMode(loc, lastGood).value;
              && |r.stations| <= maxResults
              && multiset(r.stations) <= multiset(all)
              && forall i :: 0 <= i < |r.stations| ==> InCorridor(t, LocationPoint(loc), b, lookAheadKm, r.stations[i])
  {
    match currentLocation
    case None => Selection(all, false)
    case Some(loc) =>
      match BearingForRouteMode(loc, lastGood)
      case None => Selection(all, true)
      case Some(b) => Selection(FilterAlongDirection(t, LocationPoint(loc), b, lookAheadKm, maxResults, all), false)
  }

  /** The fallback never turns a non-empty list into an empty one for lack of a heading: an
      empty selection means there was nothing, or a heading was used and nothing lay ahead. */
  lemma FallbackNeverEmptiesForLackOfHeading(t: Trig, all: seq<FuelStation>, currentLocation: Option<Location>,
                                             lastGood: Option<real>, lookAheadKm: int, maxResults: nat)
    requires FilterAlongDirectionWithFallback(t, all, currentLocation, lastGood, lookAheadKm, maxResults).stations == []
    ensures all == [] || (currentLocation.Some? && BearingForRouteMode(currentLocation.value, lastGood).Some?)
  {
  }

  // ---------------------------------------------------------------------------------------
  // Selection in 360-degree mode and the display order

  /** 360-degree mode: nearest by air first, at most `maxResults`. */
  function Nearest(all: seq<FuelStation>, maxResults: nat): (r: seq<FuelStation>)
    ensures |r| == if maxResults < |all| then maxResults else |all|
    ensures multiset(r) <= multiset(all)
    ensures SortedBy(r, AirKey)
  {
    SortBySorted(all, AirKey);
    SortedPrefix(SortBy(all, AirKey), if maxResults < |all| then maxResults else |all|, AirKey);
    Take(SortBy(all, AirKey), maxResults)
  }

  /** A station 360-degree mode leaves out is no nearer by air than any station it keeps. */
  lemma NearestKeepsNearest(all: seq<FuelStation>, maxResults: nat, x: FuelStation, y: FuelStation)
    requires x in all && x !in Nearest(all, maxResults) && y in Nearest(all, maxResults)
    ensures KeyLe(AirKey(y), AirKey(x))
  {
    TopNKeepsSmallest(all, AirKey, maxResults, x, y);
  }

  /** The selector of the chosen sort chip. */
  function DisplayKey(mode: SortMode): FuelStation -> SortKey {
    match mode
    case Price => PriceKey
    case Distance => EffectiveDistanceKey
  }

  /** `applySortAndRefresh`: a stable sort of the current list by the chosen key. */
  function SortForDisplay(stations: seq<FuelStation>, mode: SortMode): (r: seq<FuelStation>)
    ensures multiset(r) == multiset(stations)
    ensures SortedBy(r, DisplayKey(mode))
    ensures forall k :: SameKey(r, DisplayKey(mode), k) == SameKey(stations, DisplayKey(mode), k)
  {
    SortByIsStableSort(stations, DisplayKey(mode));
    SortBy(stations, DisplayKey(mode))
  }

  /** Sorting again by the same chip changes nothing. */
  lemma SortForDisplayIdempotent(stations: seq<FuelStation>, mode: SortMode)
    ensures SortForDisplay(SortForDisplay(stations, mode), mode) == SortForDisplay(stations, mode)
  {
    SortByIdempotent(SortForDisplay(stations, mode), DisplayKey(mode));
  }

  // ---------------------------------------------------------------------------------------
  // Air-distance refresh and route-distance merge

  function RefreshAir(t: Trig, origin: LatLng, s: FuelStation): FuelStation {
    s.(airDistanceKm := Some(HaversineKm(t, origin, StationPoint(s))))
  }

  /** `updateAirDistancesOnly`: every station's air distance is recomputed from `origin`;
      nothing else, and no route distance, changes. */
  function RefreshAirDistances(t: Trig, origin: LatLng, stations: seq<FuelStation>): (r: seq<FuelStation>)
    ensures |r| == |stations|
    ensures forall i :: 0 <= i < |r| ==> r[i].(airDistanceKm := stations[i].airDistanceKm) == stations[i]
    ensures forall i :: 0 <= i < |r| ==> r[i].airDistanceKm == Some(HaversineKm(t, origin, StationPoint(r[i])))
  {
    Map(stations, s => RefreshAir(t, origin, s))
  }

  /** Refreshing twice from the same fix is refreshing once. */
  lemma RefreshAirIdempotent(t: Trig, origin: LatLng, stations: seq<FuelStation>)
    ensures RefreshAirDistances(t, origin, RefreshAirDistances(t, origin, stations))
         == RefreshAirDistances(t, origin, stations)
  {
  }

  /** Stations just ingested around `origin` already carry the distances a refresh from
      `origin` would compute. */
  lemma RefreshAfterIngestIsIdentity(t: Trig, dtos: seq<DistributorDto>, origin: LatLng, priceKey: string,
                                     radiusKm: Option<int>)
    ensures var st := Ingest(t, dtos, origin, priceKey, radiusKm);
            RefreshAirDistances(t, origin, st) == st
  {
    var st := Ingest(t, dtos, origin, priceKey, radiusKm);
    var r := RefreshAirDistances(t, origin, st);
    assert forall i :: 0 <= i < |r| ==> r[i] == st[i];
  }

  function ApplyRoute(s: FuelStation, res: Option<ApiClient.RealDistanceResult>): FuelStation {
    match res
    case None => s
    case Some(v) => s.(routeDistanceKm := Some(v.distanceKm), routeDurationSec := Some(v.durationMinutes * 60))
  }

  /** Index-aligned merge of the route answers: a station with an answer at its index gets that
      route distance and `minutes * 60` seconds; any other station, including every station past
      the end of `results`, is left as it was. Only the route fields ever change. */
  function MergeRouteResults(stations: seq<FuelStation>, results: seq<Option<ApiClient.RealDistanceResult>>)
    : (r: seq<FuelStation>)
    ensures |r| == |stations|
    ensures forall i :: 0 <= i < |r| ==>
              r[i].(routeDistanceKm := stations[i].routeDistanceKm, routeDurationSec := stations[i].routeDurationSec)
              == stations[i]
    ensures forall i :: 0 <= i < |r| && i < |results| && results[i].Some? ==>
              && r[i].routeDistanceKm == Some(results[i].value.distanceKm)
              && r[i].routeDurationSec == Some(results[i].value.durationMinutes * 60)
    ensures forall i :: 0 <= i < |r| && (i >= |results| || results[i].None?) ==> r[i] == stations[i]
  {
    seq(|stations|, i requires 0 <= i < |stations| =>
      if i < |results| then ApplyRoute(stations[i], results[i]) else stations[i])
  }

  /** The air refresh and the route merge touch disjoint fields, so their order does not matter. */
  lemma RefreshAndMergeCommute(t: Trig, origin: LatLng, stations: seq<FuelStation>,
                               results: seq<Option<ApiClient.RealDistanceResult>>)
    ensures RefreshAirDistances(t, origin, MergeRouteResults(stations, results))
         == MergeRouteResults(RefreshAirDistances(t, origin, stations), results)
  {
  }

  /** The answer of a Distance-Matrix call for `n` destinations, when it has rows, holds `n`
      elements in its first row. */
  predicate AnswersEach(call: ApiClient.HttpCall<ApiClient.MatrixBody>, n: nat) {
    ApiClient.HasRows(call) ==> |call.body.value.rows.value[0].elements| == n
  }

  /** `updateRealDistances`' loop: the destinations in batches of ten, one call per batch, the
      answers concatenated in order. */
  function RouteResults(origin: LatLng, destinations: seq<LatLng>,
                        matrix: (LatLng, seq<LatLng>) -> ApiClient.HttpCall<ApiClient.MatrixBody>)
    : seq<Option<ApiClient.RealDistanceResult>>
  {
    Flatten(Map(Chunks(destinations, RouteBatchSize),
                batch => ApiClient.GetBatchDistances(batch, matrix(origin, batch))))
  }

  /** When every batch is answered with one element per destination, the `i`-th result is the
      answer, for destination `i`, of the call of the batch that holds it. */
  lemma RouteResultsAligned(origin: LatLng, destinations: seq<LatLng>,
                            matrix: (LatLng, seq<LatLng>) -> ApiClient.HttpCall<ApiClient.MatrixBody>)
    requires forall j :: 0 <= j < |Chunks(destinations, RouteBatchSize)| ==>
               AnswersEach(matrix(origin, Chunks(destinations, RouteBatchSize)[j]),
                           |Chunks(destinations, RouteBatchSize)[j]|)
    ensures |RouteResults(origin, destinations, matrix)| == |destinations|
    ensures forall i :: 0 <= i < |destinations| ==>
              && i / RouteBatchSize < |Chunks(destinations, RouteBatchSize)|
              && i % RouteBatchSize < |Chunks(destinations, RouteBatchSize)[i / RouteBatchSize]|
              && var batch := Chunks(destinations, RouteBatchSize)[i / RouteBatchSize];
                 |ApiClient.GetBatchDistances(batch, matrix(origin, batch))| == |batch|
    ensures forall i :: 0 <= i < |destinations| ==>
              var batch := Chunks(destinations, RouteBatchSize)[i / RouteBatchSize];
              && batch[i % RouteBatchSize] == destinations[i]
              && RouteResults(origin, destinations, matrix)[i]
                 == ApiClient.GetBatchDistances(batch, matrix(origin, batch))[i % RouteBatchSize]
  {
    var n := RouteBatchSize;
    var chunks := Chunks(destinations, n);
    var blocks := Map(chunks, batch => ApiClient.GetBatchDistances(batch, matrix(origin, batch)));
    assert forall j :: 0 <= j < |chunks| ==> |blocks[j]| == |chunks[j]|;
    ChunksShape(destinations, n);
    ChunksFlatten(destinations, n);
    FlattenLength(blocks, chunks);
    forall i | 0 <= i < |destinations|
      ensures var batch := chunks[i / n];
              && i / n < |chunks| && i % n < |batch| && batch[i % n] == destinations[i]
              && Flatten(blocks)[i] == ApiClient.GetBatchDistances(batch, matrix(origin, batch))[i % n]
    {
      ChunkIndex(destinations, n, i);
      FlattenIndex(blocks, n, i);
    }
  }

  /** When no batch call yields rows (network down, HTTP error, empty answer), the merge leaves
      every station exactly as it was. */
  lemma AllBatchesFailedLeavesStations(origin: LatLng, stations: seq<FuelStation>,
                                       matrix: (LatLng, seq<LatLng>) -> ApiClient.HttpCall<ApiClient.MatrixBody>)
    requires forall j :: 0 <= j < |Chunks(Map(stations, StationPoint), RouteBatchSize)| ==>
               !ApiClient.HasRows(matrix(origin, Chunks(Map(stations, StationPoint), RouteBatchSize)[j]))
    ensures MergeRouteResults(stations, RouteResults(origin, Map(stations, StationPoint), matrix)) == stations
  {
    var chunks := Chunks(Map(stations, StationPoint), RouteBatchSize);
    var blocks := Map(chunks, batch => ApiClient.GetBatchDistances(batch, matrix(origin, batch)));
    forall j, i | 0 <= j < |blocks| && 0 <= i < |blocks[j]| ensures blocks[j][i] == None {
      assert !ApiClient.HasRows(matrix(origin, chunks[j]));
      assert blocks[j] == ApiClient.GetBatchDistances(chunks[j], matrix(origin, chunks[j]));
    }
    FlattenConstant(blocks, None);
  }

  // ---------------------------------------------------------------------------------------
  // The screen

  /** The settings the screen reads (`lookAheadKm`, `maxResults`, `updateFrequencyMin`,
      `useRealDistance`). */
  datatype PhoneSettings = PhoneSettings(lookAheadKm: int, maxResults: nat, updateFrequencyMin: int,
                                         useRealDistance: bool)

  /** The status line. */
  datatype Status =
    | AwaitingSearch
    | Searching
    | ApiError(code: int)
    | NoStationsFound
    | NetworkError
    | Found(count: nat, routeMode: bool)
    | RoutesComputed(count: nat, routeMode: bool)

  datatype Session = Session(
    currentLocation: Option<Location>,
    lastGoodBearingDeg: Option<real>,
    isLiveSearchActive: bool,
    fuel: FuelType,
    settings: PhoneSettings,
    alongRouteMode: bool,
    sortMode: SortMode,
    currentStations: seq<FuelStation>,
    displayed: seq<FuelStation>,
    status: Status)

  /** The screen as created: diesel, 10 km, 5 results, every minute, air distances, route mode,
      sorted by price, idle. */
  const InitialSession: Session :=
    Session(None, None, false, Gasolio, PhoneSettings(10, 5, 1, false), true, Price, [], [], AwaitingSearch)

  /** The adapter always shows the current list in the chosen order. */
  ghost predicate DisplayConsistent(s: Session) {
    s.displayed == SortForDisplay(s.currentStations, s.sortMode)
  }

  /** The screen starts idle, without a fix, with an empty and consistent display, and with
      the very settings `loadSettings` reports for a store holding none of them. */
  lemma InitialSessionMatchesDefaults()
    ensures InitialSession.currentLocation.None? && !InitialSession.isLiveSearchActive
    ensures DisplayConsistent(InitialSession) && InitialSession.displayed == []
    ensures var d := Prefs.LoadSettings(map[]);
            && InitialSession.settings.lookAheadKm == d.lookAheadKm
            && InitialSession.settings.maxResults == d.maxResults
            && InitialSession.settings.updateFrequencyMin == d.updateIntervalMin
            && InitialSession.settings.useRealDistance == d.useRealDistance
            && InitialSession.fuel.Value() == d.fuelType
            && InitialSession.alongRouteMode == d.alongRouteMode
  {
  }

  /** `updateAirDistancesOnly` followed by the re-sort. */
  function UpdateAirDistancesOnly(t: Trig, s: Session): (r: Session)
    ensures r.currentLocation.None? ==> r == s
    ensures r.currentLocation.Some? ==>
              && r == s.(currentStations := r.currentStations, displayed := r.displayed)
              && r.currentStations == RefreshAirDistances(t, LocationPoint(s.currentLocation.value), s.currentStations)
              && DisplayConsistent(r)
  {
    match s.currentLocation
    case None => s
    case Some(loc) =>
      var stations := RefreshAirDistances(t, LocationPoint(loc), s.currentStations);
      s.(currentStations := stations, displayed := SortForDisplay(stations, s.sortMode))
  }

  /** `updateUserLocation`: stores the fix, updates the bearing memory, and during a live search
      with stations on screen refreshes their air distances and re-sorts. */
  function UpdateUserLocation(t: Trig, s: Session, loc: Location): (r: Session)
    ensures r.currentLocation == Some(loc)
    ensures r.lastGoodBearingDeg == RememberBearing(s.lastGoodBearingDeg, loc)
    ensures r.fuel == s.fuel && r.alongRouteMode == s.alongRouteMode && r.sortMode == s.sortMode
    ensures |r.currentStations| == |s.currentStations|
    ensures s.isLiveSearchActive && |s.currentStations| > 0 ==>
              && r.currentStations == RefreshAirDistances(t, LocationPoint(loc), s.currentStations)
              && DisplayConsistent(r)
    ensures !(s.isLiveSearchActive && |s.currentStations| > 0) ==>
              r.currentStations == s.currentStations && r.displayed == s.displayed
    ensures r.isLiveSearchActive == s.isLiveSearchActive && r.settings == s.settings && r.status == s.status
  {
    var s1 := s.(currentLocation := Some(loc), lastGoodBearingDeg := RememberBearing(s.lastGoodBearingDeg, loc));
    if s1.isLiveSearchActive && |s1.currentStations| > 0 then UpdateAirDistancesOnly(t, s1) else s1
  }

  /** A stream of fixes, applied one after the other. */
  function ReceiveLocations(t: Trig, s: Session, fixes: seq<Location>): Session
    decreases |fixes|
  {
    if |fixes| == 0 then s else ReceiveLocations(t, UpdateUserLocation(t, s, fixes[0]), fixes[1..])
  }

  /** After any stream of fixes, the memory holds the heading of the latest reliable one (or what
      it held before, if none was reliable), and the screen is at the latest fix. */
  lemma {:induction false} BearingMemoryIsLastReliable(t: Trig, s: Session, fixes: seq<Location>)
    ensures ReceiveLocations(t, s, fixes).lastGoodBearingDeg == LastReliableBearing(fixes, s.lastGoodBearingDeg)
    ensures |fixes| > 0 ==> ReceiveLocations(t, s, fixes).currentLocation == Some(fixes[|fixes| - 1])
    decreases |fixes|
  {
    if |fixes| > 0 {
      var s1 := UpdateUserLocation(t, s, fixes[0]);
      BearingMemoryIsLastReliable(t, s1, fixes[1..]);
      assert fixes == [fixes[0]] + fixes[1..];
      LastReliableCons(fixes[0], fixes[1..], s.lastGoodBearingDeg);
    }
  }

  /** The query `searchAndUpdate` sends: at the current fix, within `lookAheadKm`, twice the
      results shown. */
  function QueryAt(s: Session, loc: Location): NearbyQuery {
    NearbyQuery(loc.latitude, loc.longitude, s.settings.lookAheadKm, s.fuel.Value(), s.settings.maxResults * 2)
  }

  /** `searchAndUpdate`: without a fix nothing happens; otherwise the status turns to
      "searching" and the query is issued. */
  function SearchAndUpdate(s: Session): (r: (Session, Option<NearbyQuery>))
    ensures s.currentLocation.None? <==> r.1.None?
    ensures s.currentLocation.None? ==> r.0 == s
    ensures s.currentLocation.Some? ==>
              && r.0 == s.(status := Searching)
              && r.1.value.latitude == s.currentLocation.value.latitude
              && r.1.value.longitude == s.currentLocation.value.longitude
              && r.1.value.results == 2 * s.settings.maxResults
              && r.1.value.distanceKm == s.settings.lookAheadKm
              && FuelTypeFromValue(r.1.value.fuel) == Some(s.fuel)
  {
    FuelTypeValueRoundTrip(s.fuel, s.fuel.Value());
    match s.currentLocation
    case None => (s, None)
    case Some(loc) => (s.(status := Searching), Some(QueryAt(s, loc)))
  }

  /** `startLiveSearch`: waits for a fix (the retry timer is not modelled); with one, the search
      becomes live and the first query is issued. */
  function StartLiveSearch(s: Session): (r: (Session, Option<NearbyQuery>))
    ensures s.currentLocation.None? ==> r == (s, None)
    ensures s.currentLocation.Some? ==> r.0.isLiveSearchActive && r.1.Some? && r.0.status == Searching
  {
    if s.currentLocation.None? then (s, None)
    else SearchAndUpdate(s.(isLiveSearchActive := true))
  }

  /** `stopLiveSearch`: the list and the adapter are emptied and the status reset; the bearing
      memory and the last fix survive. */
  function StopLiveSearch(s: Session): (r: Session)
    ensures !r.isLiveSearchActive && r.currentStations == [] && r.displayed == [] && r.status == AwaitingSearch
    ensures r.lastGoodBearingDeg == s.lastGoodBearingDeg && r.currentLocation == s.currentLocation
    ensures DisplayConsistent(r)
  {
    s.(isLiveSearchActive := false, currentStations := [], displayed := [], status := AwaitingSearch)
  }

  /** The sort chips: the order changes, the list does not. */
  function SelectSortMode(s: Session, mode: SortMode): (r: Session)
    ensures r.currentStations == s.currentStations && r.sortMode == mode
    ensures multiset(r.displayed) == multiset(s.currentStations)
    ensures DisplayConsistent(r)
  {
    s.(sortMode := mode, displayed := SortForDisplay(s.currentStations, mode))
  }

  /** `updateStationDisplay`: the new list replaces the old and is shown sorted. */
  function UpdateStationDisplay(s: Session, stations: seq<FuelStation>): (r: Session)
    ensures r.currentStations == stations && DisplayConsistent(r)
  {
    s.(currentStations := stations, displayed := SortForDisplay(stations, s.sortMode))
  }

  /** `updateRealDistances`: route distances for every listed station, batched, merged by index,
      then re-sorted. Without a fix nothing changes. */
  function UpdateRealDistances(t: Trig, s: Session,
                               matrix: (LatLng, seq<LatLng>) -> ApiClient.HttpCall<ApiClient.MatrixBody>)
    : (r: Session)
    ensures s.currentLocation.None? ==> r == s
    ensures s.currentLocation.Some? ==>
              && r.currentStations
                 == MergeRouteResults(s.currentStations,
                                      RouteResults(LocationPoint(s.currentLocation.value),
                                                   Map(s.currentStations, StationPoint), matrix))
              && r.status == RoutesComputed(|s.currentStations|, s.alongRouteMode)
              && DisplayConsistent(r)
    ensures r.lastGoodBearingDeg == s.lastGoodBearingDeg && |r.currentStations| == |s.currentStations|
  {
    match s.currentLocation
    case None => s
    case Some(loc) =>
      var results := RouteResults(LocationPoint(loc), Map(s.currentStations, StationPoint), matrix);
      var stations := MergeRouteResults(s.currentStations, results);
      s.(currentStations := stations, displayed := SortForDisplay(stations, s.sortMode),
         status := RoutesComputed(|stations|, s.alongRouteMode))
  }

  /** The list a successful, non-empty answer produces: ingested around the fix the request was
      made from, then chosen by the current mode. */
  function SelectFinal(t: Trig, s: Session, requestLoc: Location, dtos: seq<DistributorDto>): (r: seq<FuelStation>)
    ensures multiset(r)
            <= multiset(Ingest(t, dtos, LocationPoint(requestLoc), s.fuel.Value(), Some(s.settings.lookAheadKm)))
    ensures forall i :: 0 <= i < |r| ==>
              r[i].airDistanceKm.Some? && r[i].airDistanceKm.value <= s.settings.lookAheadKm as real
    ensures !s.alongRouteMode ==> |r| <= s.settings.maxResults
    ensures var raw := Ingest(t, dtos, LocationPoint(requestLoc), s.fuel.Value(), Some(s.settings.lookAheadKm));
            && (!s.alongRouteMode ==> r == Nearest(raw, s.settings.maxResults))
            && (s.alongRouteMode ==>
                  r == FilterAlongDirectionWithFallback(t, raw, s.currentLocation, s.lastGoodBearingDeg,
                                                        s.settings.lookAheadKm, s.settings.maxResults).stations)
  {
    var raw := Ingest(t, dtos, LocationPoint(requestLoc), s.fuel.Value(), Some(s.settings.lookAheadKm));
    var r := if !s.alongRouteMode then Nearest(raw, s.settings.maxResults)
             else FilterAlongDirectionWithFallback(t, raw, s.currentLocation, s.lastGoodBearingDeg,
                                                   s.settings.lookAheadKm, s.settings.maxResults).stations;
    WithinRadius(raw, r, s.settings.lookAheadKm);
    r
  }

  /** Whatever is chosen from the ingested list inherits its radius bound. */
  lemma WithinRadius(raw: seq<FuelStation>, r: seq<FuelStation>, radiusKm: int)
    requires forall i :: 0 <= i < |raw| ==>
               raw[i].airDistanceKm.Some? && raw[i].airDistanceKm.value <= radiusKm as real
    requires multiset(r) <= multiset(raw)
    ensures forall i :: 0 <= i < |r| ==>
              r[i].airDistanceKm.Some? && r[i].airDistanceKm.value <= radiusKm as real
  {
    forall i | 0 <= i < |r|
      ensures r[i].airDistanceKm.Some? && r[i].airDistanceKm.value <= radiusKm as real
    {
      assert r[i] in multiset(raw);
    }
  }

  /** `searchAndUpdate`'s callbacks. A network failure or an HTTP error only changes the status;
      an empty body empties the adapter (the current list stays); otherwise the new list is
      shown and, with road distances on, routed. */
  function OnStationsResponse(t: Trig, s: Session, requestLoc: Location, outcome: FetchOutcome,
                              matrix: (LatLng, seq<LatLng>) -> ApiClient.HttpCall<ApiClient.MatrixBody>)
    : (r: Session)
    ensures r.lastGoodBearingDeg == s.lastGoodBearingDeg && r.currentLocation == s.currentLocation
    ensures outcome.NetworkFailure? ==> r == s.(status := NetworkError)
    ensures outcome.Answered? && !ApiClient.IsSuccessful(outcome.code) ==> r == s.(status := ApiError(outcome.code))
    ensures outcome.Answered? && ApiClient.IsSuccessful(outcome.code) && outcome.body.GetOr([]) == [] ==>
              r == s.(status := NoStationsFound, displayed := [])
    ensures outcome.Answered? && ApiClient.IsSuccessful(outcome.code) && outcome.body.GetOr([]) != [] ==>
              r == OnStationsFound(t, s, requestLoc, outcome.body.value, matrix)
  {
    match outcome
    case NetworkFailure => s.(status := NetworkError)
    case Answered(code, body) =>
      if !ApiClient.IsSuccessful(code) then s.(status := ApiError(code))
      else if body.GetOr([]) == [] then s.(status := NoStationsFound, displayed := [])
      else OnStationsFound(t, s, requestLoc, body.value, matrix)
  }

  /** The successful branch of `searchAndUpdate`: the selected stations are shown, and with
      road distances on they are routed, which changes only their route fields. Every shown
      station lies within the radius; in nearest mode there are at most `maxResults`. */
  function OnStationsFound(t: Trig, s: Session, requestLoc: Location, dtos: seq<DistributorDto>,
                           matrix: (LatLng, seq<LatLng>) -> ApiClient.HttpCall<ApiClient.MatrixBody>)
    : (r: Session)
    ensures r.lastGoodBearingDeg == s.lastGoodBearingDeg && r.currentLocation == s.currentLocation
    ensures DisplayConsistent(r)
    ensures var final := SelectFinal(t, s, requestLoc, dtos);
            && |r.currentStations| == |final|
            && (forall i :: 0 <= i < |r.currentStations| ==>
                  r.currentStations[i].(routeDistanceKm := final[i].routeDistanceKm,
                                        routeDurationSec := final[i].routeDurationSec) == final[i])
            && (!s.settings.useRealDistance ==>
                  && r.currentStations == final
                  && r.status == Found(|final|, s.alongRouteMode))
    ensures forall i :: 0 <= i < |r.currentStations| ==>
              && r.currentStations[i].airDistanceKm.Some?
              && r.currentStations[i].airDistanceKm.value <= s.settings.lookAheadKm as real
    ensures !s.alongRouteMode ==> |r.currentStations| <= s.settings.maxResults
  {
    ShowStations(t, s, SelectFinal(t, s, requestLoc, dtos), matrix)
  }

  /** Showing a selection: the list is replaced and displayed, the status reports its size, and
      with road distances on it is routed, which touches only the route fields. */
  function ShowStations(t: Trig, s: Session, final: seq<FuelStation>,
                        matrix: (LatLng, seq<LatLng>) -> ApiClient.HttpCall<ApiClient.MatrixBody>)
    : (r: Session)
    ensures r.lastGoodBearingDeg == s.lastGoodBearingDeg && r.currentLocation == s.currentLocation
    ensures DisplayConsistent(r)
    ensures |r.currentStations| == |final|
    ensures forall i :: 0 <= i < |r.currentStations| ==>
              && r.currentStations[i].(routeDistanceKm := final[i].routeDistanceKm,
                                       routeDurationSec := final[i].routeDurationSec) == final[i]
              && r.currentStations[i].airDistanceKm == final[i].airDistanceKm
    ensures !s.settings.useRealDistance ==> r.currentStations == final && r.status == Found(|final|, s.alongRouteMode)
  {
    var s1 := UpdateStationDisplay(s, final).(status := Found(|final|, s.alongRouteMode));
    if s.settings.useRealDistance then RoutingChangesOnlyRoutes(t, s1, matrix); UpdateRealDistances(t, s1, matrix)
    else s1
  }

  /** Routing a consistent session keeps it consistent and changes only the route fields of
      its stations. */
  lemma RoutingChangesOnlyRoutes(t: Trig, s: Session,
                                 matrix: (LatLng, seq<LatLng>) -> ApiClient.HttpCall<ApiClient.MatrixBody>)
    requires DisplayConsistent(s)
    ensures var r := UpdateRealDistances(t, s, matrix);
            && DisplayConsistent(r)
            && r.lastGoodBearingDeg == s.lastGoodBearingDeg && r.currentLocation == s.currentLocation
            && |r.currentStations| == |s.currentStations|
            && forall i :: 0 <= i < |r.currentStations| ==>
                 && r.currentStations[i].(routeDistanceKm := s.currentStations[i].routeDistanceKm,
                                          routeDurationSec := s.currentStations[i].routeDurationSec)
                    == s.currentStations[i]
                 && r.currentStations[i].airDistanceKm == s.currentStations[i].airDistanceKm
  {
    var r := UpdateRealDistances(t, s, matrix);
    forall i | 0 <= i < |r.currentStations|
      ensures r.currentStations[i].airDistanceKm == s.currentStations[i].airDistanceKm
    {
      assert r.currentStations[i].(routeDistanceKm := s.currentStations[i].routeDistanceKm,
                                   routeDurationSec := s.currentStations[i].routeDurationSec)
             == s.currentStations[i];
    }
  }

}

=== FILE: seqs.dfy ===
/** Order-preserving sequence operations used by the station pipelines:
    Kotlin's `filter`, `take` and the `step`-loop chunking of a list. */
module Seqs {

  /** Kotlin `filter`: the elements satisfying `p`, in their original order. */
  function Filter<T>(xs: seq<T>, p: T -> bool): (r: seq<T>)
    ensures |r| <= |xs|
    ensures forall i :: 0 <= i < |r| ==> p(r[i])
    ensures multiset(r) <= multiset(xs)
  {
    if |xs| == 0 then []
    else
      var rest := Filter(xs[1..], p);
      assert xs == [xs[0]] + xs[1..];
      if p(xs[0]) then [xs[0]] + rest else rest
  }

  /** An element survives `Filter` exactly when it is in the input and satisfies `p`. */
  lemma {:induction false} FilterMembership<T>(xs: seq<T>, p: T -> bool, x: T)
    ensures x in Filter(xs, p) <==> x in xs && p(x)
  {
    if |xs| > 0 {
      FilterMembership(xs[1..], p, x);
      assert xs == [xs[0]] + xs[1..];
      if p(xs[0]) {
        assert Filter(xs, p) == [xs[0]] + Filter(xs[1..], p);
      } else {
        assert Filter(xs, p) == Filter(xs[1..], p);
      }
    }
  }

  /** Filtering with a predicate that every element satisfies changes nothing. */
  lemma {:induction false} FilterKeepsAll<T>(xs: seq<T>, p: T -> bool)
    requires forall i :: 0 <= i < |xs| ==> p(xs[i])
    ensures Filter(xs, p) == xs
  {
    if |xs| > 0 {
      FilterKeepsAll(xs[1..], p);
      assert xs == [xs[0]] + xs[1..];
    }
  }

  /** `r` can be obtained from `xs` by deleting elements (order is kept). */
  ghost predicate IsSubsequence<T>(r: seq<T>, xs: seq<T>)
    decreases |xs|
  {
    if |r| == 0 then true
    else if |xs| == 0 then false
    else if r[0] == xs[0] then IsSubsequence(r[1..], xs[1..])
    else IsSubsequence(r, xs[1..])
  }

  lemma {:induction false} FilterIsSubsequence<T>(xs: seq<T>, p: T -> bool)
    ensures IsSubsequence(Filter(xs, p), xs)
  {
    if |xs| > 0 {
      FilterIsSubsequence(xs[1..], p);
    }
  }

  /** Kotlin `take(n)`: the first `min(n, |xs|)` elements. */
  function Take<T>(xs: seq<T>, n: nat): (r: seq<T>)
    ensures |r| == if n < |xs| then n else |xs|
    ensures r <= xs
    ensures multiset(r) <= multiset(xs)
  {
    if n < |xs| then
      assert xs == xs[..n] + xs[n..];
      xs[..n]
    else xs
  }

  /** Kotlin `map`. */
  function Map<T, U>(xs: seq<T>, f: T -> U): (r: seq<U>)
    ensures |r| == |xs|
    ensures forall i :: 0 <= i < |xs| ==> r[i] == f(xs[i])
  {
    seq(|xs|, i requires 0 <= i < |xs| => f(xs[i]))
  }

  /** The loop `for (i in xs.indices step n) xs.subList(i, minOf(i + n, xs.size))`. */
  function Chunks<T>(xs: seq<T>, n: nat): seq<seq<T>>
    requires n > 0
    decreases |xs|
  {
    if |xs| == 0 then []
    else if |xs| <= n then [xs]
    else [xs[..n]] + Chunks(xs[n..], n)
  }

  /** Concatenation of a sequence of sequences (Kotlin `addAll` in a loop). */
  function Flatten<T>(xss: seq<seq<T>>): seq<T>
  {
    if |xss| == 0 then [] else xss[0] + Flatten(xss[1..])
  }

  /** Blocks of the same lengths flatten to sequences of the same length. */
  lemma {:induction false} FlattenLength<T, U>(xss: seq<seq<T>>, yss: seq<seq<U>>)
    requires |xss| == |yss|
    requires forall j :: 0 <= j < |xss| ==> |xss[j]| == |yss[j]|
    ensures |Flatten(xss)| == |Flatten(yss)|
  {
    if |xss| > 0 {
      FlattenLength(xss[1..], yss[1..]);
    }
  }

  /** Flattening blocks that hold only `v` gives a sequence holding only `v`. */
  lemma {:induction false} FlattenConstant<T>(xss: seq<seq<T>>, v: T)
    requires forall j, i :: 0 <= j < |xss| && 0 <= i < |xss[j]| ==> xss[j][i] == v
    ensures forall i :: 0 <= i < |Flatten(xss)| ==> Flatten(xss)[i] == v
  {
    if |xss| > 0 {
      FlattenConstant(xss[1..], v);
      var f := Flatten(xss);
      assert f == xss[0] + Flatten(xss[1..]);
      forall i | 0 <= i < |f| ensures f[i] == v {
        if i >= |xss[0]| { assert f[i] == Flatten(xss[1..])[i - |xss[0]|]; }
      }
    }
  }

  /** The chunks put back together are the original list. */
  lemma {:induction false} ChunksFlatten<T>(xs: seq<T>, n: nat)
    requires n > 0
    ensures Flatten(Chunks(xs, n)) == xs
    decreases |xs|
  {
    if |xs| == 0 {
    } else if |xs| <= n {
      assert Flatten([xs]) == xs + Flatten([]);
    } else {
      var rest := Chunks(xs[n..], n);
      ChunksFlatten(xs[n..], n);
      assert Chunks(xs, n) == [xs[..n]] + rest;
      assert ([xs[..n]] + rest)[1..] == rest;
      assert xs == xs[..n] + xs[n..];
    }
  }

  /** There are ceil(|xs| / n) chunks; every chunk is non-empty and at most `n` long, and every
      chunk but the last is exactly `n` long. */
  lemma {:induction false} ChunksShape<T>(xs: seq<T>, n: nat)
    requires n > 0
    ensures |Chunks(xs, n)| == (|xs| + n - 1) / n
    ensures forall j :: 0 <= j < |Chunks(xs, n)| ==> 0 < |Chunks(xs, n)[j]| <= n
    ensures forall j :: 0 <= j < |Chunks(xs, n)| - 1 ==> |Chunks(xs, n)[j]| == n
    decreases |xs|
  {
    if |xs| == 0 {
      DivUnique(n - 1, n, 0, n - 1);
    } else if |xs| <= n {
      DivUnique(|xs| + n - 1, n, 1, |xs| - 1);
    } else {
      var rest := Chunks(xs[n..], n);
      ChunksShape(xs[n..], n);
      assert Chunks(xs, n) == [xs[..n]] + rest;
      DivStep(|xs[n..]| + n - 1, n);
      assert |xs| + n - 1 == (|xs[n..]| + n - 1) + n;
      forall j | 0 <= j < |Chunks(xs, n)|
        ensures 0 < |Chunks(xs, n)[j]| <= n
        ensures j < |Chunks(xs, n)| - 1 ==> |Chunks(xs, n)[j]| == n
      {
        if j > 0 { assert Chunks(xs, n)[j] == rest[j - 1]; }
      }
    }
  }

  /** Element `i` of a flattened sequence of equal-length blocks sits in block `i / n` at `i % n`. */
  lemma {:induction false} FlattenIndex<T>(xss: seq<seq<T>>, n: nat, i: nat)
    requires n > 0
    requires forall j :: 0 <= j < |xss| ==> |xss[j]| <= n
    requires forall j :: 0 <= j < |xss| - 1 ==> |xss[j]| == n
    requires i < |Flatten(xss)|
    ensures i / n < |xss| && i % n < |xss[i / n]|
    ensures Flatten(xss)[i] == xss[i / n][i % n]
    decreases |xss|
  {
    assert |xss| > 0;
    assert Flatten(xss) == xss[0] + Flatten(xss[1..]);
    if i < |xss[0]| {
      if |xss| > 1 {
        assert |xss[0]| == n;
        DivUnique(i, n, 0, i);
      } else {
        DivUnique(i, n, 0, i);
      }
    } else {
      assert |xss| > 1;
      assert |xss[0]| == n;
      FlattenIndex(xss[1..], n, i - n);
      DivStep(i - n, n);
    }
  }

  /** Integer division is determined by quotient and remainder. */
  lemma DivUnique(a: int, n: int, q: int, r: int)
    requires n > 0 && 0 <= r < n && a == q * n + r
    ensures a / n == q && a % n == r
  {
    assert (a / n - q) * n == r - a % n;
    MulSmall(a / n - q, n);
  }

  lemma MulSmall(d: int, n: int)
    requires n > 0 && -n < d * n < n
    ensures d == 0
  {
    if d != 0 {
      MulAbs(d, n);
    }
  }

  lemma MulAbs(d: int, n: int)
    requires n > 0 && d != 0
    ensures d * n >= n || d * n <= -n
  {
  }

  /** Adding one divisor to a non-negative dividend adds one to the quotient. */
  lemma DivStep(x: int, n: int)
    requires n > 0 && x >= 0
    ensures (x + n) / n == x / n + 1 && (x + n) % n == x % n
  {
    assert x == (x / n) * n + x % n;
    assert x + n == (x / n + 1) * n + x % n;
    DivUnique(x + n, n, x / n + 1, x % n);
  }

  /** Positions of the original list map onto chunk positions: `xs[i] == chunk[i / n][i % n]`. */
  lemma ChunkIndex<T>(xs: seq<T>, n: nat, i: nat)
    requires n > 0 && i < |xs|
    ensures i / n < |Chunks(xs, n)| && i % n < |Chunks(xs, n)[i / n]|
    ensures Chunks(xs, n)[i / n][i % n] == xs[i]
  {
    ChunksFlatten(xs, n);
    ChunksShape(xs, n);
    FlattenIndex(Chunks(xs, n), n, i);
  }
}

=== FILE: sorting.dfy ===
/** Kotlin's `sortedBy { key }` on lists: a stable sort by a nullable `Comparable` key, where
    `compareValues` orders `null` before every number. */
module Sorting {
  import opened Seqs

  /** The value a `sortedBy` selector returns: `null` or a number. */
  datatype SortKey = Null | Num(v: real)

  /** `compareValues(a, b) <= 0`: null first, then numbers ascending. */
  predicate KeyLe(a: SortKey, b: SortKey) {
    match a
    case Null => true
    case Num(x) => b.Num? && x <= b.v
  }

  lemma KeyLeTotalOrder(a: SortKey, b: SortKey, c: SortKey)
    ensures KeyLe(a, a)
    ensures KeyLe(a, b) || KeyLe(b, a)
    ensures KeyLe(a, b) && KeyLe(b, a) ==> a == b
    ensures KeyLe(a, b) && KeyLe(b, c) ==> KeyLe(a, c)
  {
  }

  /** Ascending by key. */
  ghost predicate SortedBy<T>(xs: seq<T>, key: T -> SortKey) {
    forall i, j :: 0 <= i < j < |xs| ==> KeyLe(key(xs[i]), key(xs[j]))
  }

  /** The elements of `xs` whose key is `k`, in their order in `xs`. Stability of a sort means
      that this subsequence is the same before and after sorting, for every `k`. */
  function SameKey<T>(xs: seq<T>, key: T -> SortKey, k: SortKey): seq<T>
  {
    if |xs| == 0 then []
    else if key(xs[0]) == k then [xs[0]] + SameKey(xs[1..], key, k)
    else SameKey(xs[1..], key, k)
  }

  /** Places `x` before the first element whose key is not smaller than its own. */
  function Insert<T>(x: T, xs: seq<T>, key: T -> SortKey): (r: seq<T>)
    ensures |r| == |xs| + 1
    ensures multiset(r) == multiset(xs) + multiset{x}
  {
    if |xs| == 0 then [x]
    else if KeyLe(key(x), key(xs[0])) then [x] + xs
    else
      assert xs == [xs[0]] + xs[1..];
      [xs[0]] + Insert(x, xs[1..], key)
  }

  /** Stable insertion sort: `xs.sortedBy(key)`. */
  function SortBy<T>(xs: seq<T>, key: T -> SortKey): (r: seq<T>)
    ensures |r| == |xs|
    ensures multiset(r) == multiset(xs)
  {
    if |xs| == 0 then []
    else
      assert xs == [xs[0]] + xs[1..];
      Insert(xs[0], SortBy(xs[1..], key), key)
  }

  lemma {:induction false} InsertSorted<T>(x: T, xs: seq<T>, key: T -> SortKey)
    requires SortedBy(xs, key)
    ensures SortedBy(Insert(x, xs, key), key)
  {
    if |xs| > 0 && !KeyLe(key(x), key(xs[0])) {
      var rest := Insert(x, xs[1..], key);
      InsertSorted(x, xs[1..], key);
      var r := [xs[0]] + rest;
      forall i, j | 0 <= i < j < |r|
        ensures KeyLe(key(r[i]), key(r[j]))
      {
        if i == 0 {
          assert r[j] in multiset(rest);
          assert r[j] == x || r[j] in xs[1..];
        }
      }
    }
  }

  /** The sort's output is ascending by key. */
  lemma {:induction false} SortBySorted<T>(xs: seq<T>, key: T -> SortKey)
    ensures SortedBy(SortBy(xs, key), key)
  {
    if |xs| > 0 {
      SortBySorted(xs[1..], key);
      InsertSorted(xs[0], SortBy(xs[1..], key), key);
    }
  }

  lemma {:induction false} InsertSameKey<T>(x: T, xs: seq<T>, key: T -> SortKey, k: SortKey)
    ensures SameKey(Insert(x, xs, key), key, k)
         == if key(x) == k then [x] + SameKey(xs, key, k) else SameKey(xs, key, k)
  {
    if |xs| == 0 {
    } else if KeyLe(key(x), key(xs[0])) {
      assert ([x] + xs)[1..] == xs;
    } else {
      InsertSameKey(x, xs[1..], key, k);
      assert ([xs[0]] + Insert(x, xs[1..], key))[1..] == Insert(x, xs[1..], key);
    }
  }

  /** Stability: for every key, the elements carrying it keep their relative order. */
  lemma {:induction false} SortByStable<T>(xs: seq<T>, key: T -> SortKey, k: SortKey)
    ensures SameKey(SortBy(xs, key), key, k) == SameKey(xs, key, k)
  {
    if |xs| > 0 {
      SortByStable(xs[1..], key, k);
      InsertSameKey(xs[0], SortBy(xs[1..], key), key, k);
    }
  }

  lemma {:induction false} SameKeyMember<T>(xs: seq<T>, key: T -> SortKey, k: SortKey, x: T)
    ensures x in SameKey(xs, key, k) <==> x in xs && key(x) == k
  {
    if |xs| > 0 {
      SameKeyMember(xs[1..], key, k, x);
      assert xs == [xs[0]] + xs[1..];
    }
  }

  /** A sequence all of whose key classes are empty is empty. */
  lemma NoClassesEmpty<T>(xs: seq<T>, key: T -> SortKey)
    ensures (forall k :: SameKey(xs, key, k) == []) ==> |xs| == 0
  {
    if |xs| > 0 {
      assert SameKey(xs, key, key(xs[0])) != [];
    }
  }

  /** Two sequences ascending by key whose key classes coincide are equal. */
  lemma {:induction false} SortedClassesDetermine<T>(a: seq<T>, b: seq<T>, key: T -> SortKey)
    requires SortedBy(a, key) && SortedBy(b, key)
    requires forall k :: SameKey(a, key, k) == SameKey(b, key, k)
    ensures a == b
    decreases |a|
  {
    if |a| == 0 {
      NoClassesEmpty(b, key);
    } else {
      var k := key(a[0]);
      assert SameKey(a, key, k) == [a[0]] + SameKey(a[1..], key, k);
      assert SameKey(b, key, k) != [];
      var k' := key(b[0]);
      assert SameKey(b, key, k') == [b[0]] + SameKey(b[1..], key, k');
      // a's smallest key occurs in b and vice versa, so the two smallest keys coincide
      SameKeyMember(a, key, k', b[0]);
      SameKeyMember(b, key, k, a[0]);
      var i :| 0 <= i < |a| && a[i] == b[0];
      var j :| 0 <= j < |b| && b[j] == a[0];
      assert KeyLe(k, key(a[i]));
      assert KeyLe(k', key(b[j]));
      KeyLeTotalOrder(k, k', k);
      assert k == k';
      assert SameKey(a, key, k)[0] == a[0];
      assert SameKey(b, key, k)[0] == b[0];
      forall k2
        ensures SameKey(a[1..], key, k2) == SameKey(b[1..], key, k2)
      {
        assert SameKey(a, key, k2) == SameKey(b, key, k2);
        if key(a[0]) == k2 {
          assert SameKey(a, key, k2)[1..] == SameKey(a[1..], key, k2);
        }
      }
      SortedClassesDetermine(a[1..], b[1..], key);
      assert a == [a[0]] + a[1..] && b == [b[0]] + b[1..];
    }
  }

  /** `SortBy` is THE stable sort: any arrangement that is ascending by key and keeps every key
      class in input order is exactly `SortBy(xs, key)`. */
  lemma StableSortUnique<T>(xs: seq<T>, r: seq<T>, key: T -> SortKey)
    requires SortedBy(r, key)
    requires forall k :: SameKey(r, key, k) == SameKey(xs, key, k)
    ensures r == SortBy(xs, key)
  {
    SortBySorted(xs, key);
    forall k ensures SameKey(r, key, k) == SameKey(SortBy(xs, key), key, k) {
      SortByStable(xs, key, k);
    }
    SortedClassesDetermine(r, SortBy(xs, key), key);
  }

  /** Sorting an already sorted list changes nothing (so re-sorting is idempotent). */
  lemma SortByIdempotent<T>(xs: seq<T>, key: T -> SortKey)
    requires SortedBy(xs, key)
    ensures SortBy(xs, key) == xs
  {
    StableSortUnique(xs, xs, key);
  }

  /** A prefix of a sorted list is sorted. */
  lemma SortedPrefix<T>(xs: seq<T>, n: nat, key: T -> SortKey)
    requires SortedBy(xs, key) && n <= |xs|
    ensures SortedBy(xs[..n], key)
  {
  }

  /** Everything a stable sort promises, in one statement: a permutation, ascending by key, and
      every key class in input order. */
  lemma SortByIsStableSort<T>(xs: seq<T>, key: T -> SortKey)
    ensures multiset(SortBy(xs, key)) == multiset(xs)
    ensures SortedBy(SortBy(xs, key), key)
    ensures forall k :: SameKey(SortBy(xs, key), key, k) == SameKey(xs, key, k)
  {
    SortBySorted(xs, key);
    forall k ensures SameKey(SortBy(xs, key), key, k) == SameKey(xs, key, k) {
      SortByStable(xs, key, k);
    }
  }

  /** `sortedBy(key).take(n)` keeps the `n` smallest: anything of `xs` left out has a key no
      smaller than the key of anything kept. */
  lemma TopNKeepsSmallest<T>(xs: seq<T>, key: T -> SortKey, n: nat, x: T, y: T)
    requires x in xs && x !in Take(SortBy(xs, key), n) && y in Take(SortBy(xs, key), n)
    ensures KeyLe(key(y), key(x))
  {
    var s := SortBy(xs, key);
    SortBySorted(xs, key);
    assert x in multiset(s);
    var k :| 0 <= k < |s| && s[k] == x;
    var j :| 0 <= j < |Take(s, n)| && Take(s, n)[j] == y;
    assert k >= |Take(s, n)|;
    assert s[j] == y;
  }

  /** Sorting two elements swaps them exactly when the first key is the larger. */
  lemma SortTwo<T>(x: T, y: T, key: T -> SortKey)
    ensures SortBy([x, y], key) == if KeyLe(key(x), key(y)) then [x, y] else [y, x]
  {
    assert [x, y][1..] == [y];
    assert SortBy([y], key) == [y];
  }
}

=== FILE: station_adapter.dfy ===
/** The list rows of the phone screen (`StationAdapter`) and the relative-age labels shared with
    `MainActivity`: how a station's price, distance, last-update text and colours are chosen.
    Number formatting (`String.format("%.3f")` and friends) is kept abstract: a row records the
    number it shows, not its digits. The clock and the date parser are parameters. */
module Adapter {
  import opened Optional
  import opened Seqs
  import opened Stations
  import Decimal
  import ApiClient
  import PhoneScreen

  // ---------------------------------------------------------------------------------------
  // The adapter's list

  datatype StationList = StationList(items: seq<FuelStation>)

  /** `updateStations`: the previous items are cleared and the new ones added in order. */
  function UpdateStations(a: StationList, newItems: seq<FuelStation>): (r: StationList)
    ensures ItemCount(r) == |newItems|
    ensures forall i :: 0 <= i < |newItems| ==> r.items[i] == newItems[i]
  {
    StationList(newItems)
  }

  /** `getItemCount`. */
  function ItemCount(a: StationList): nat {
    |a.items|
  }

  /** Nothing of the previous list survives an update: two lists updated with the same items
      are the same list. */
  lemma UpdateForgetsPrevious(a: StationList, b: StationList, newItems: seq<FuelStation>)
    ensures UpdateStations(a, newItems) == UpdateStations(b, newItems)
  {
    assert UpdateStations(a, newItems).items == newItems;
  }

  // ---------------------------------------------------------------------------------------
  // Age of a price

  /** Kotlin's `Char.isWhitespace` on the JVM (Java's `isWhitespace` or `isSpaceChar`): the
      ASCII controls 9-13 and 28-31, and the Unicode space, line and paragraph separators,
      no-break spaces included. */
  predicate IsWhitespace(c: char) {
    || '\U{0009}' <= c <= '\U{000D}' || '\U{001C}' <= c <= '\U{0020}'
    || c == '\U{00A0}' || c == '\U{1680}' || '\U{2000}' <= c <= '\U{200A}'
    || c == '\U{2028}' || c == '\U{2029}' || c == '\U{202F}' || c == '\U{205F}' || c == '\U{3000}'
  }

  /** `isNullOrBlank`. */
  predicate IsNullOrBlank(s: Option<string>) {
    s.None? || forall i :: 0 <= i < |s.value| ==> IsWhitespace(s.value[i])
  }

  const MillisPerMinute: nat := 60000

  /** `computeAgeMinutes`: whole minutes between the parsed timestamp and `nowMs`, or nothing
      for a blank text, a text the date format rejects, or a timestamp in the future. `parse`
      stands for `SimpleDateFormat("dd/MM/yyyy HH:mm:ss").parse(..)?.time`, with failures as
      `None`. */
  function ComputeAgeMinutes(lastUpdate: Option<string>, parse: string -> Option<int>, nowMs: int)
    : (r: Option<nat>)
    ensures IsNullOrBlank(lastUpdate) ==> r.None?
    ensures !IsNullOrBlank(lastUpdate) ==>
              (r.Some? <==> parse(lastUpdate.value).Some? && parse(lastUpdate.value).value <= nowMs)
    ensures r.Some? ==> var elapsed := nowMs - parse(lastUpdate.value).value;
                        r.value * MillisPerMinute <= elapsed < (r.value + 1) * MillisPerMinute
  {
    if IsNullOrBlank(lastUpdate) then None
    else match parse(lastUpdate.value)
      case None => None
      case Some(t) =>
        var diffMs := nowMs - t;
        if diffMs < 0 then None else Some(diffMs / MillisPerMinute)
  }

  /** The coarsest unit `humanizeAge` reports, with its count. */
  datatype Age =
    | JustNow
    | Minutes(n: nat)
    | Hours(n: nat)
    | Days(n: nat)
    | Weeks(n: nat)
    | Months(n: nat)
    | Years(n: nat)

  /** Units from finest to coarsest. */
  function Rank(a: Age): nat {
    match a
    case JustNow => 0
    case Minutes(_) => 1
    case Hours(_) => 2
    case Days(_) => 3
    case Weeks(_) => 4
    case Months(_) => 5
    case Years(_) => 6
  }

  function Count(a: Age): nat {
    if a.JustNow? then 0 else a.n
  }

  const MinutesPerHour: nat := 60
  const MinutesPerDay: nat := 1440
  const MinutesPerWeek: nat := 10080
  const MinutesPerMonth: nat := 43200
  const MinutesPerYear: nat := 525600

  lemma DivDiv(a: nat, b: nat, c: nat)
    requires b > 0 && c > 0
    ensures a / b / c == a / (b * c)
  {
    var m := a / b;
    var q := m / c;
    var r := (m % c) * b + a % b;
    assert a == m * b + a % b;
    assert m == q * c + m % c;
    assert m * b == q * (b * c) + (m % c) * b by {
      assert m * b == (q * c + m % c) * b;
      assert (q * c + m % c) * b == q * c * b + (m % c) * b;
    }
    assert (m % c) * b <= (c - 1) * b by {
      MulLeft(m % c, c - 1, b);
    }
    assert (c - 1) * b == c * b - b;
    DivUnique(a, b * c, q, r);
  }

  lemma MulLeft(x: nat, y: nat, b: nat)
    requires x <= y
    ensures x * b <= y * b
  {
  }

  lemma {:induction false} DivMonotone(a: nat, b: nat, d: nat)
    requires a <= b && d > 0
    ensures a / d <= b / d
    decreases a
  {
    if a >= d {
      DivMonotone(a - d, b - d, d);
      DivStep(a - d, d);
      DivStep(b - d, d);
    }
  }

  /** The classification `humanizeAge` makes. Each unit is derived from the previous one by
      `Long` division, as in the source, so that a week is counted from whole days and a month
      or a year from whole days too. */
  function Classify(ageMin: nat): (a: Age)
    ensures a.JustNow? <==> ageMin == 0
    ensures a.Minutes? <==> 1 <= ageMin < MinutesPerHour
    ensures a.Hours? <==> MinutesPerHour <= ageMin < MinutesPerDay
    ensures a.Days? <==> MinutesPerDay <= ageMin < MinutesPerWeek
    ensures a.Weeks? <==> MinutesPerWeek <= ageMin < 5 * MinutesPerWeek
    ensures a.Months? <==> 5 * MinutesPerWeek <= ageMin < 12 * MinutesPerMonth
    ensures a.Years? <==> 12 * MinutesPerMonth <= ageMin
    ensures a.Minutes? ==> a.n == ageMin
    ensures a.Hours? ==> a.n == ageMin / MinutesPerHour
    ensures a.Days? ==> a.n == ageMin / MinutesPerDay
    ensures a.Weeks? ==> a.n == ageMin / MinutesPerWeek
    ensures a.Months? ==> a.n == ageMin / MinutesPerMonth
    ensures a.Years? ==> a.n == if ageMin / MinutesPerYear < 2 then 1 else ageMin / MinutesPerYear
  {
    DivDiv(ageMin, 60, 24);
    var hours := ageMin / 60;
    var days := hours / 24;
    DivDiv(ageMin, 1440, 7);
    DivDiv(ageMin, 1440, 30);
    DivDiv(ageMin, 1440, 365);
    if ageMin < 1 then JustNow
    else if ageMin < 2 then Minutes(1)
    else if ageMin < 60 then Minutes(ageMin)
    else if hours < 2 then Hours(1)
    else if hours < 24 then Hours(hours)
    else if days < 2 then Days(1)
    else if days < 7 then Days(days)
    else if days / 7 < 2 then Weeks(1)
    else if days / 7 < 5 then Weeks(days / 7)
    else if days / 30 < 2 then Months(1)
    else if days / 30 < 12 then Months(days / 30)
    else if days / 365 < 2 then Years(1)
    else Years(days / 365)
  }

  /** Older prices never get a finer label, and within one unit never a smaller count. */
  lemma ClassifyMonotone(a: nat, b: nat)
    requires a <= b
    ensures Rank(Classify(a)) <= Rank(Classify(b))
    ensures Rank(Classify(a)) == Rank(Classify(b)) ==> Count(Classify(a)) <= Count(Classify(b))
  {
    DivMonotone(a, b, MinutesPerHour);
    DivMonotone(a, b, MinutesPerDay);
    DivMonotone(a, b, MinutesPerWeek);
    DivMonotone(a, b, MinutesPerMonth);
    DivMonotone(a, b, MinutesPerYear);
  }

  /** The unit words after the count, singular (count one) and plural. */
  function UnitWords(a: Age): (string, string)
    requires !a.JustNow?
  {
    match a
    case Minutes(_) => ("minuto", "minuti")
    case Hours(_) => ("ora", "ore")
    case Days(_) => ("gg", "gg")
    case Weeks(_) => ("sett", "sett")
    case Months(_) => ("mese", "mesi")
    case Years(_) => ("anno", "anni")
  }

  const JustNowText: string := "pochi secondi fa"

  /** The Italian text of an age: "pochi secondi fa", or the count, the unit word and "fa". */
  function Render(a: Age): string {
    if a.JustNow? then JustNowText
    else
      Decimal.NatToString(a.n) + Suffix(a)
  }

  /** What follows the count: " ", the unit word, " fa". */
  function Suffix(a: Age): string
    requires !a.JustNow?
  {
    var words := UnitWords(a);
    " " + (if a.n == 1 then words.0 else words.1) + " fa"
  }

  /** `humanizeAge` (identical in `StationAdapter` and `MainActivity`). */
  function HumanizeAge(ageMin: nat): (s: string)
    ensures ageMin == 0 <==> s == JustNowText
  {
    RenderJustNow(Classify(ageMin));
    Render(Classify(ageMin))
  }

  /** The labels of the first hour: "1 minuto fa", then the count of minutes. */
  lemma HumanizeMinutes(ageMin: nat)
    requires 1 <= ageMin < MinutesPerHour
    ensures ageMin == 1 ==> HumanizeAge(ageMin) == "1 minuto fa"
    ensures ageMin >= 2 ==> HumanizeAge(ageMin) == Decimal.NatToString(ageMin) + " minuti fa"
  {
    assert Classify(ageMin) == Minutes(ageMin);
  }

  /** The labels from 360 days on: every age up to 729 days reads "1 anno fa"; from 730 days
      on, whole years of 365 days are counted. */
  lemma HumanizeYears(ageMin: nat)
    requires 12 * MinutesPerMonth <= ageMin
    ensures ageMin < 2 * MinutesPerYear ==> HumanizeAge(ageMin) == "1 anno fa"
    ensures ageMin >= 2 * MinutesPerYear ==>
              HumanizeAge(ageMin) == Decimal.NatToString(ageMin / MinutesPerYear) + " anni fa"
  {
    if ageMin >= 2 * MinutesPerYear {
      DivMonotone(2 * MinutesPerYear, ageMin, MinutesPerYear);
      assert Classify(ageMin) == Years(ageMin / MinutesPerYear);
    } else {
      assert Classify(ageMin) == Years(1);
    }
  }

  /** Only the youngest age reads "pochi secondi fa"; every other label starts with a digit. */
  lemma RenderJustNow(a: Age)
    ensures a.JustNow? <==> Render(a) == JustNowText
    ensures !a.JustNow? ==> Decimal.IsDigit(Render(a)[0])
  {
    if !a.JustNow? {
      assert Render(a)[0] == Decimal.NatToString(a.n)[0];
      assert JustNowText[0] == 'p';
    }
  }

  /** The leading run of decimal digits of `s`. */
  function LeadingDigits(s: string): (d: string)
    ensures d <= s
    ensures forall i :: 0 <= i < |d| ==> Decimal.IsDigit(d[i])
  {
    if |s| == 0 || !Decimal.IsDigit(s[0]) then ""
    else [s[0]] + LeadingDigits(s[1..])
  }

  lemma {:induction false} LeadingDigitsOf(d: string, rest: string)
    requires forall i :: 0 <= i < |d| ==> Decimal.IsDigit(d[i])
    requires |rest| > 0 && !Decimal.IsDigit(rest[0])
    ensures LeadingDigits(d + rest) == d
  {
    if |d| > 0 {
      LeadingDigitsOf(d[1..], rest);
      assert (d + rest)[1..] == d[1..] + rest;
    } else {
      assert d + rest == rest;
    }
  }

  /** Reads an age label back: the count, then the unit word. */
  function ParseLabel(s: string): Option<Age> {
    if s == JustNowText then Some(JustNow)
    else
      var d := LeadingDigits(s);
      if |d| == 0 then None
      else
        var n := Decimal.ParseNat(d);
        ParseSuffix(s[|d|..], Decimal.ParseNat(d))
  }

  /** The unit named by what follows the count. */
  function ParseSuffix(unit: string, n: nat): Option<Age> {
    if |unit| < 2 then None
    else match unit[1]
      case 'm' =>
        if unit == " minuto fa" || unit == " minuti fa" then Some(Minutes(n))
        else if unit == " mese fa" || unit == " mesi fa" then Some(Months(n))
        else None
      case 'o' => if unit == " ora fa" || unit == " ore fa" then Some(Hours(n)) else None
      case 'g' => if unit == " gg fa" then Some(Days(n)) else None
      case 's' => if unit == " sett fa" then Some(Weeks(n)) else None
      case 'a' => if unit == " anno fa" || unit == " anni fa" then Some(Years(n)) else None
      case _ => None
  }

  lemma ParseSuffixOf(a: Age)
    requires !a.JustNow?
    ensures ParseSuffix(Suffix(a), a.n) == Some(a)
    ensures Suffix(a)[0] == ' '
  {
    match a
    case Minutes(n) =>
      assert Suffix(a)[1] == 'm' && |Suffix(a)| == 10;
    case Hours(n) =>
      assert Suffix(a)[1] == 'o';
    case Days(n) =>
      assert Suffix(a)[1] == 'g';
    case Weeks(n) =>
      assert Suffix(a)[1] == 's';
    case Months(n) =>
      assert Suffix(a)[1] == 'm' && |Suffix(a)| == 8;
    case Years(n) =>
      assert Suffix(a)[1] == 'a';
  }

  /** Every label reads back as the age it renders. */
  lemma RenderIsParsed(a: Age)
    ensures ParseLabel(Render(a)) == Some(a)
    ensures a.JustNow? <==> Render(a) == JustNowText
  {
    if !a.JustNow? {
      var d := Decimal.NatToString(a.n);
      var unit := Suffix(a);
      ParseSuffixOf(a);
      assert Decimal.IsDigit(Render(a)[0]);
      assert Render(a) != JustNowText by {
        assert JustNowText[0] == 'p';
      }
      LeadingDigitsOf(d, unit);
      assert Render(a)[|d|..] == unit;
      Decimal.NatToStringRoundTrip(a.n);
    }
  }

  /** Two ages get the same label exactly when `humanizeAge` puts them in the same unit with the
      same count: the label loses nothing of the classification. */
  lemma HumanizeAgeDeterminesAge(a: nat, b: nat)
    ensures HumanizeAge(a) == HumanizeAge(b) <==> Classify(a) == Classify(b)
  {
    RenderIsParsed(Classify(a));
    RenderIsParsed(Classify(b));
  }

  // ---------------------------------------------------------------------------------------
  // Last-update texts

  const UnknownUpdateText: string := "Aggiornamento n/d"
  const UpdatedPrefix: string := "Aggiornato: "

  /** `formatLastUpdateRelative` of the adapter: unknown for a blank text, the raw text when its
      age cannot be computed, the relative age otherwise. */
  function FormatLastUpdateRelative(lastUpdate: Option<string>, parse: string -> Option<int>, nowMs: int)
    : (r: string)
    ensures IsNullOrBlank(lastUpdate) <==> r == UnknownUpdateText
    ensures !IsNullOrBlank(lastUpdate) ==>
              var age := ComputeAgeMinutes(lastUpdate, parse, nowMs);
              && (age.None? ==> r == UpdatedPrefix + lastUpdate.value)
              && (age.Some? ==> r == UpdatedPrefix + HumanizeAge(age.value))
  {
    if IsNullOrBlank(lastUpdate) then UnknownUpdateText
    else
      assert (UpdatedPrefix + lastUpdate.value)[8] == 't' != UnknownUpdateText[8];
      match ComputeAgeMinutes(lastUpdate, parse, nowMs)
      case None => UpdatedPrefix + lastUpdate.value
      case Some(ageMin) =>
        assert (UpdatedPrefix + HumanizeAge(ageMin))[8] == 't';
        UpdatedPrefix + HumanizeAge(ageMin)
  }

  const NotAvailableText: string := "n/d"

  /** `formatRelativeUpdate` of the main screen: the relative age, or "n/d" for a blank text or
      one whose age cannot be computed. */
  function FormatRelativeUpdate(lastUpdate: Option<string>, parse: string -> Option<int>, nowMs: int)
    : (r: string)
    ensures r == NotAvailableText <==> ComputeAgeMinutes(lastUpdate, parse, nowMs).None?
    ensures ComputeAgeMinutes(lastUpdate, parse, nowMs).Some? ==>
              r == HumanizeAge(ComputeAgeMinutes(lastUpdate, parse, nowMs).value)
  {
    if IsNullOrBlank(lastUpdate) then NotAvailableText
    else match ComputeAgeMinutes(lastUpdate, parse, nowMs)
      case None => NotAvailableText
      case Some(ageMin) =>
        HumanizeAgeNotUnavailable(ageMin);
        HumanizeAge(ageMin)
  }

  lemma HumanizeAgeNotUnavailable(ageMin: nat)
    ensures HumanizeAge(ageMin) != NotAvailableText
  {
    var a := Classify(ageMin);
    if !a.JustNow? {
      assert Decimal.IsDigit(HumanizeAge(ageMin)[0]);
    }
  }

  /** The list row and the main screen show the same relative age; they differ only in the
      prefix and in what they show when the age is unknown. */
  lemma LastUpdateTextsAgree(lastUpdate: Option<string>, parse: string -> Option<int>, nowMs: int)
    ensures FormatRelativeUpdate(lastUpdate, parse, nowMs) != NotAvailableText ==>
              FormatLastUpdateRelative(lastUpdate, parse, nowMs)
              == UpdatedPrefix + FormatRelativeUpdate(lastUpdate, parse, nowMs)
    ensures FormatRelativeUpdate(lastUpdate, parse, nowMs) == NotAvailableText ==>
              FormatLastUpdateRelative(lastUpdate, parse, nowMs)
              == (if IsNullOrBlank(lastUpdate) then UnknownUpdateText else UpdatedPrefix + lastUpdate.value)
  {
  }

  // ---------------------------------------------------------------------------------------
  // Row contents

  datatype Colour = Primary | Accent | Red | Green | TextSecondary

  /** The price colour by age: fresh (up to six hours) or unknown in the primary colour, up to a
      day in the accent colour, older in red. */
  function PriceColour(ageMin: Option<nat>): (c: Colour)
    ensures c == Red <==> ageMin.Some? && ageMin.value > MinutesPerDay
    ensures c == Accent <==> ageMin.Some? && 6 * MinutesPerHour < ageMin.value <= MinutesPerDay
    ensures c == Primary <==> ageMin.None? || ageMin.value <= 6 * MinutesPerHour
  {
    match ageMin
    case None => Primary
    case Some(m) =>
      if 0 <= m <= 6 * 60 then Primary
      else if 6 * 60 + 1 <= m <= 24 * 60 then Accent
      else Red
  }

  /** Colour and label never contradict each other: a price labelled in minutes or hours is
      never red, and one labelled in weeks or coarser units is always red. The one-day label
      covers both: exactly 1440 minutes is still in the accent colour. */
  lemma PriceColourAgreesWithLabel(ageMin: nat)
    ensures Rank(Classify(ageMin)) <= 2 ==> PriceColour(Some(ageMin)) != Red
    ensures Rank(Classify(ageMin)) >= 3 ==> PriceColour(Some(ageMin)) != Primary
    ensures Rank(Classify(ageMin)) >= 4 ==> PriceColour(Some(ageMin)) == Red
    ensures PriceColour(Some(MinutesPerDay)) == Accent && Classify(MinutesPerDay) == Days(1)
  {
  }

  /** The price text: the first price, or "Prezzo n/d". */
  datatype PriceText = Euro(price: real) | PriceUnavailable

  /** The distance text, by precedence: route with minutes, route alone, air line, or
      "Calcolo...". */
  datatype DistanceText =
    | RoadWithMinutes(km: real, minutes: int)
    | Road(km: real)
    | AirLine(km: real)
    | Computing

  datatype Row = Row(
    name: string,
    address: string,
    price: PriceText,
    distance: DistanceText,
    lastUpdate: string,
    priceColour: Colour,
    distanceColour: Colour)

  function PriceTextOf(s: FuelStation): (p: PriceText)
    ensures p.PriceUnavailable? <==> FirstPrice(s).None?
    ensures p.Euro? ==> p.price == FirstPrice(s).value
  {
    match FirstPrice(s)
    case None => PriceUnavailable
    case Some(v) => Euro(v)
  }

  /** The distance text: the route distance wins over the air distance; minutes are the
      duration in seconds divided by 60, truncated as Kotlin `Int` division. */
  function DistanceTextOf(s: FuelStation): (d: DistanceText)
    ensures d.Computing? <==> s.routeDistanceKm.None? && s.airDistanceKm.None?
    ensures (d.RoadWithMinutes? || d.Road?) <==> s.routeDistanceKm.Some?
    ensures d.RoadWithMinutes? <==> s.routeDistanceKm.Some? && s.routeDurationSec.Some?
    ensures d.RoadWithMinutes? ==> d.minutes == ApiClient.SecondsToMinutes(s.routeDurationSec.value)
  {
    match s.routeDistanceKm
    case Some(km) =>
      (match s.routeDurationSec
       case Some(sec) => RoadWithMinutes(km, ApiClient.SecondsToMinutes(sec))
       case None => Road(km))
    case None =>
      (match s.airDistanceKm
       case Some(km) => AirLine(km)
       case None => Computing)
  }

  /** `bind`: the row shown for one station. */
  function Bind(s: FuelStation, parse: string -> Option<int>, nowMs: int): (row: Row)
    ensures row.name == s.name && row.address == s.address
    ensures row.price.PriceUnavailable? <==> FirstPrice(s).None?
    ensures row.price == PriceTextOf(s) && row.distance == DistanceTextOf(s)
    ensures row.distanceColour == Green <==> s.routeDistanceKm.Some?
    ensures row.distanceColour != Green ==> row.distanceColour == TextSecondary
    ensures row.priceColour == PriceColour(ComputeAgeMinutes(s.lastUpdate, parse, nowMs))
    ensures row.lastUpdate == FormatLastUpdateRelative(s.lastUpdate, parse, nowMs)
  {
    Row(s.name, s.address, PriceTextOf(s), DistanceTextOf(s),
        FormatLastUpdateRelative(s.lastUpdate, parse, nowMs),
        PriceColour(ComputeAgeMinutes(s.lastUpdate, parse, nowMs)),
        if s.routeDistanceKm.Some? then Green else TextSecondary)
  }

  /** Green marks exactly the rows whose text is a road distance. */
  lemma GreenIffRoad(s: FuelStation, parse: string -> Option<int>, nowMs: int)
    ensures Bind(s, parse, nowMs).distanceColour == Green
        <==> (Bind(s, parse, nowMs).distance.Road? || Bind(s, parse, nowMs).distance.RoadWithMinutes?)
  {
  }

  /** The distance a row shows is the distance the main screen sorts by (route first, then air
      line), whenever the row shows one. */
  lemma ShownDistanceIsSortDistance(s: FuelStation)
    ensures !DistanceTextOf(s).Computing? ==> DistanceTextOf(s).km == EffectiveDistanceKm(s)
    ensures DistanceTextOf(s).Computing? ==> EffectiveDistanceKm(s) == MaxDouble
  {
  }

  /** A route answer merged into a station shows its minutes unchanged: the merge stores
      `minutes * 60` seconds and the row divides by 60 again. */
  lemma MergedMinutesShowUnchanged(s: FuelStation, res: ApiClient.RealDistanceResult)
    ensures DistanceTextOf(PhoneScreen.ApplyRoute(s, Some(res)))
         == RoadWithMinutes(res.distanceKm, res.durationMinutes)
  {
    var sec := res.durationMinutes * 60;
    if sec >= 0 {
      DivUnique(sec, 60, res.durationMinutes, 0);
    } else {
      DivUnique(-sec, 60, -res.durationMinutes, 0);
    }
  }

  /** The rows of the list, one per item, in order. */
  function Rows(a: StationList, parse: string -> Option<int>, nowMs: int): (rows: seq<Row>)
    ensures |rows| == ItemCount(a)
    ensures forall i :: 0 <= i < |rows| ==> rows[i] == Bind(a.items[i], parse, nowMs)
  {
    Map(a.items, s => Bind(s, parse, nowMs))
  }
}

=== FILE: stations.dfy ===
/** The shared data model: raw API records (`DistributorDto`), fuel kinds, the ranked
    `FuelStation` record, location samples, and the conversion from the former to the latter
    that all three screens perform (`mapNotNull { dto -> ... }`). */
module Stations {
  import opened Optional
  import opened Seqs
  import opened Sorting
  import opened Geometry

  /** `Double.MAX_VALUE`, the sort key of a missing price or distance. */
  const MaxDouble: real := 179769313486231570000000000000000000000000000000000000000000000000000000000000000000000000000000000000000000000000000000000000000000000000000000000000000000000000000000000000000000000000000000000000000000000000000000000000000000000000000000000000000000000000000000000000000000000000000000000000000000000000000.0

  /** One raw record of the station-price API; every field may be absent. */
  datatype DistributorDto = DistributorDto(
    latitudine: Option<real>,
    longitudine: Option<real>,
    prezzo: Option<real>,
    gestore: Option<string>,
    indirizzo: Option<string>,
    data: Option<string>,
    ranking: Option<int>)

  /** `FuelType` with its API value. */
  datatype FuelType = Gasolio | Benzina | Gpl | Metano {
    function Value(): string {
      match this
      case Gasolio => "gasolio"
      case Benzina => "benzina"
      case Gpl => "gpl"
      case Metano => "metano"
    }
  }

  /** `FuelType.values().find { it.value == s }`. */
  function FuelTypeFromValue(s: string): Option<FuelType> {
    if s == "gasolio" then Some(Gasolio)
    else if s == "benzina" then Some(Benzina)
    else if s == "gpl" then Some(Gpl)
    else if s == "metano" then Some(Metano)
    else None
  }

  /** Looking up a fuel kind by its value finds exactly that kind, and only values of fuel kinds
      are found. */
  lemma FuelTypeValueRoundTrip(ft: FuelType, s: string)
    ensures FuelTypeFromValue(ft.Value()) == Some(ft)
    ensures FuelTypeFromValue(s) == Some(ft) <==> s == ft.Value()
  {
  }

  /** The station id `"${ranking ?: 0}_${lat}_${lon}"`, kept as its three parts. */
  datatype StationId = StationId(ranking: int, latitude: real, longitude: real)

  /** `FuelStation`. `prices` is the (insertion-ordered) map as a list of entries. */
  datatype FuelStation = FuelStation(
    id: StationId,
    name: string,
    brand: string,
    address: string,
    latitude: real,
    longitude: real,
    prices: seq<(string, real)>,
    airDistanceKm: Option<real>,
    routeDistanceKm: Option<real>,
    routeDurationSec: Option<int>,
    lastUpdate: Option<string>)

  /** `android.location.Location`, reduced to the fields the screens read. */
  datatype Location = Location(
    latitude: real,
    longitude: real,
    hasBearing: bool,
    bearing: real,
    bearingAccuracyDegrees: real)

  /** The query sent to the station-price API (`getNearbyStations` as called). */
  datatype NearbyQuery = NearbyQuery(latitude: real, longitude: real, distanceKm: int, fuel: string, results: int)

  /** The outcome of a station-price call: the transport failed, or an HTTP status with a
      possibly absent body. */
  datatype FetchOutcome = NetworkFailure | Answered(code: int, body: Option<seq<DistributorDto>>)

  function LocationPoint(loc: Location): LatLng {
    LatLng(loc.latitude, loc.longitude)
  }

  function StationPoint(s: FuelStation): LatLng {
    LatLng(s.latitude, s.longitude)
  }

  /** `prices.values.firstOrNull()`. */
  function FirstPrice(s: FuelStation): Option<real> {
    if |s.prices| == 0 then None else Some(s.prices[0].1)
  }

  /** A record is usable only with latitude, longitude and price. */
  predicate IsComplete(d: DistributorDto) {
    d.latitudine.Some? && d.longitudine.Some? && d.prezzo.Some?
  }

  function DtoPoint(d: DistributorDto): LatLng
    requires IsComplete(d)
  {
    LatLng(d.latitudine.value, d.longitudine.value)
  }

  /** The station built from a complete record, priced under `priceKey`, at air distance `air`. */
  function BuildStation(d: DistributorDto, priceKey: string, air: real): (s: FuelStation)
    requires IsComplete(d)
    ensures StationPoint(s) == DtoPoint(d)
    ensures FirstPrice(s) == d.prezzo
    ensures s.airDistanceKm == Some(air) && s.routeDistanceKm.None? && s.routeDurationSec.None?
  {
    FuelStation(
      StationId(d.ranking.GetOr(0), d.latitudine.value, d.longitudine.value),
      d.gestore.GetOr("Distributore"),
      d.gestore.GetOr(""),
      d.indirizzo.GetOr("Indirizzo non disponibile"),
      d.latitudine.value,
      d.longitudine.value,
      [(priceKey, d.prezzo.value)],
      Some(air),
      None,
      None,
      d.data)
  }

  /** The record survives ingestion: complete, and (with a radius) no farther than it. */
  predicate Keeps(t: Trig, origin: LatLng, radiusKm: Option<int>, d: DistributorDto) {
    IsComplete(d) && (radiusKm.None? || HaversineKm(t, origin, DtoPoint(d)) <= radiusKm.value as real)
  }

  /** `Keeps` as a filter predicate. */
  function KeepsFilter(t: Trig, origin: LatLng, radiusKm: Option<int>): DistributorDto -> bool {
    d => Keeps(t, origin, radiusKm, d)
  }

  /** The station a kept record becomes. */
  function Ingested(t: Trig, origin: LatLng, priceKey: string, d: DistributorDto): FuelStation
    requires IsComplete(d)
  {
    BuildStation(d, priceKey, HaversineKm(t, origin, DtoPoint(d)))
  }

  /** `dtos.mapNotNull { ... }`: drops incomplete records (and, with a radius, the ones farther
      than it) and builds the others, in input order. */
  function Ingest(t: Trig, dtos: seq<DistributorDto>, origin: LatLng, priceKey: string, radiusKm: Option<int>)
    : (r: seq<FuelStation>)
    ensures |r| <= |dtos|
    ensures forall i :: 0 <= i < |r| ==>
              && r[i].airDistanceKm == Some(HaversineKm(t, origin, StationPoint(r[i])))
              && (radiusKm.Some? ==> r[i].airDistanceKm.value <= radiusKm.value as real)
              && r[i].routeDistanceKm.None? && r[i].routeDurationSec.None?
              && FirstPrice(r[i]).Some?
    decreases |dtos|
  {
    if |dtos| == 0 then []
    else
      var rest := Ingest(t, dtos[1..], origin, priceKey, radiusKm);
      if Keeps(t, origin, radiusKm, dtos[0]) then [Ingested(t, origin, priceKey, dtos[0])] + rest
      else rest
  }

  /** Ingestion is filter-then-build: exactly the kept records, each built, in input order. */
  lemma {:induction false} IngestIsFilterThenBuild(t: Trig, dtos: seq<DistributorDto>, origin: LatLng,
                                                   priceKey: string, radiusKm: Option<int>)
    ensures var kept := Filter(dtos, KeepsFilter(t, origin, radiusKm));
            && |Ingest(t, dtos, origin, priceKey, radiusKm)| == |kept|
            && forall i :: 0 <= i < |kept| ==>
                 Ingest(t, dtos, origin, priceKey, radiusKm)[i] == Ingested(t, origin, priceKey, kept[i])
    decreases |dtos|
  {
    if |dtos| > 0 {
      var p := KeepsFilter(t, origin, radiusKm);
      IngestIsFilterThenBuild(t, dtos[1..], origin, priceKey, radiusKm);
      var kept', rest := Filter(dtos[1..], p), Ingest(t, dtos[1..], origin, priceKey, radiusKm);
      if p(dtos[0]) {
        var f := Filter(dtos, p);
        assert f == [dtos[0]] + kept';
        var r := Ingest(t, dtos, origin, priceKey, radiusKm);
        assert r == [Ingested(t, origin, priceKey, dtos[0])] + rest;
        forall i | 0 <= i < |f|
          ensures r[i] == Ingested(t, origin, priceKey, f[i])
        {
          if i > 0 {
            assert f[i] == kept'[i - 1];
            assert r[i] == rest[i - 1];
          }
        }
      } else {
        assert Filter(dtos, p) == kept';
      }
    }
  }

  /** A record's station is ingested exactly when the record is kept. */
  lemma {:induction false} IngestMembership(t: Trig, dtos: seq<DistributorDto>, origin: LatLng,
                                            priceKey: string, radiusKm: Option<int>, d: DistributorDto)
    requires d in dtos && IsComplete(d)
    ensures Ingested(t, origin, priceKey, d) in Ingest(t, dtos, origin, priceKey, radiusKm)
            <==> Keeps(t, origin, radiusKm, d)
    decreases |dtos|
  {
    var s := Ingested(t, origin, priceKey, d);
    if dtos[0] == d {
      if !Keeps(t, origin, radiusKm, d) {
        IngestNeverBuilds(t, dtos[1..], origin, priceKey, radiusKm, d);
      }
    } else {
      IngestMembership(t, dtos[1..], origin, priceKey, radiusKm, d);
      if Keeps(t, origin, radiusKm, dtos[0]) && Ingested(t, origin, priceKey, dtos[0]) == s {
        assert DtoPoint(dtos[0]) == DtoPoint(d);
      }
    }
  }

  /** A station that a dropped record would become is never produced: whether a record is kept
      depends only on its position, which the station carries. */
  lemma {:induction false} IngestNeverBuilds(t: Trig, dtos: seq<DistributorDto>, origin: LatLng,
                                             priceKey: string, radiusKm: Option<int>, d: DistributorDto)
    requires IsComplete(d) && !Keeps(t, origin, radiusKm, d)
    ensures Ingested(t, origin, priceKey, d) !in Ingest(t, dtos, origin, priceKey, radiusKm)
    decreases |dtos|
  {
    if |dtos| > 0 {
      IngestNeverBuilds(t, dtos[1..], origin, priceKey, radiusKm, d);
      if Keeps(t, origin, radiusKm, dtos[0]) {
        assert StationPoint(Ingested(t, origin, priceKey, dtos[0])) == DtoPoint(dtos[0]);
        assert StationPoint(Ingested(t, origin, priceKey, d)) == DtoPoint(d);
      }
    }
  }

  // Sort keys (the `sortedBy` selectors of the screens)

  /** `sortedBy { it.airDistanceKm }`: a missing distance sorts first. */
  function AirKey(s: FuelStation): SortKey {
    match s.airDistanceKm
    case None => Null
    case Some(d) => Num(d)
  }

  /** `sortedBy { it.airDistanceKm ?: Double.MAX_VALUE }`. */
  function AirOrMaxKey(s: FuelStation): SortKey {
    Num(s.airDistanceKm.GetOr(MaxDouble))
  }

  /** `sortedBy { it.prices.values.firstOrNull() ?: Double.MAX_VALUE }`. */
  function PriceKey(s: FuelStation): SortKey {
    Num(FirstPrice(s).GetOr(MaxDouble))
  }

  /** Route distance if known, else air distance, else `Double.MAX_VALUE`. */
  function EffectiveDistanceKm(s: FuelStation): real {
    s.routeDistanceKm.GetOr(s.airDistanceKm.GetOr(MaxDouble))
  }

  function EffectiveDistanceKey(s: FuelStation): SortKey {
    Num(EffectiveDistanceKm(s))
  }

  /** For stations that all carry an air distance, the nullable and the `?: MAX_VALUE` air keys
      order them the same way. */
  lemma AirKeysAgree(a: FuelStation, b: FuelStation)
    requires a.airDistanceKm.Some? && b.airDistanceKm.Some?
    ensures KeyLe(AirKey(a), AirKey(b)) <==> KeyLe(AirOrMaxKey(a), AirOrMaxKey(b))
  {
  }

  /** A known route distance takes precedence over the air distance; a station with neither
      sorts after every station whose distance is below `Double.MAX_VALUE`. */
  lemma EffectiveDistancePrecedence(s: FuelStation, other: FuelStation)
    ensures s.routeDistanceKm.Some? ==> EffectiveDistanceKm(s) == s.routeDistanceKm.value
    ensures s.routeDistanceKm.None? && s.airDistanceKm.Some? ==> EffectiveDistanceKm(s) == s.airDistanceKm.value
    ensures s.routeDistanceKm.None? && s.airDistanceKm.None? && EffectiveDistanceKm(other) < MaxDouble
            ==> KeyLe(EffectiveDistanceKey(other), EffectiveDistanceKey(s))
  {
  }
}

=== FILE: widget.dfy ===
/** The home-screen widget (`FuelFinderWidgetProvider`): its reading of the shared settings,
    its own station selection (no radius, a spherical "ahead" test, air-distance order), the
    per-widget sort mode, and what the station list shows. Location and network answers are
    inputs; the `RemoteViews` are reduced to what they display. */
module Widget {
  import opened Optional
  import opened Seqs
  import opened Sorting
  import opened Geometry
  import opened Stations
  import opened Prefs
  import Decimal
  import ApiClient

  /** The widget's "ahead" test is strict: the angle must be below this many degrees. */
  const AheadLimitDeg: real := 70.0
  /** The widget has three station rows and never shows more results than that. */
  const RowCount: nat := 3
  /** The widget files every price under this key, whatever the fuel. */
  const PriceEntryKey: string := "fuel"
  const SortModeKeyPrefix: string := "sort_mode_"
  const EmptyText: string := "Nessun distributore trovato"

  // ---------------------------------------------------------------------------------------
  // Settings as the widget reads them

  /** The per-widget key of the sort mode, `"sort_mode_" + id`. */
  function SortModeKey(widgetId: int): string {
    SortModeKeyPrefix + Decimal.IntToString(widgetId)
  }

  /** Different widgets have different sort-mode keys, and none of them is a settings key. */
  lemma SortModeKeysDistinct(a: int, b: int)
    ensures SortModeKey(a) == SortModeKey(b) ==> a == b
    ensures SortModeKey(a) !in SettingsKeys
  {
    if SortModeKey(a) == SortModeKey(b) {
      assert Decimal.IntToString(a) == SortModeKey(a)[|SortModeKeyPrefix|..];
      assert Decimal.IntToString(b) == SortModeKey(b)[|SortModeKeyPrefix|..];
      Decimal.IntToStringInjective(a, b);
    }
    SortModeKeyNotSetting(a);
  }

  /** No settings key starts with the letter of the sort-mode prefix. */
  lemma SortModeKeyNotSetting(a: int)
    ensures SortModeKey(a) !in SettingsKeys
  {
    var key := SortModeKey(a);
    assert key[0] == 's';
    assert key != KeyLookAheadKm && key != KeyMaxResults && key != KeyUpdateInterval && key != KeyFuelType;
    assert key != KeyAlongRouteMode && key != KeyUseRealDistance && key != KeyAppInitialized;
  }

  /** The sort mode of a widget; "PRICE" when none is stored. */
  function CurrentSortMode(store: Store, widgetId: int): string {
    GetString(store, SortModeKey(widgetId), "PRICE")
  }

  /** What `updateWidget` reads before searching. */
  datatype WidgetConfig = WidgetConfig(maxResults: int, fuelType: string, lookAheadKm: int,
                                       alongRouteMode: bool, sortMode: string)

  /** `updateWidget`'s reading of the store: nothing until the app has been initialised;
      then at most three results (three by default), 10 km and 360-degree mode by default. */
  function LoadWidgetConfig(store: Store, widgetId: int): (r: Option<WidgetConfig>)
    ensures r.None? <==> !GetBoolean(store, KeyAppInitialized, false)
    ensures r.Some? ==> && r.value.maxResults <= RowCount
                        && (KeyMaxResults !in store ==> r.value.maxResults == RowCount)
                        && r.value.sortMode == CurrentSortMode(store, widgetId)
  {
    if !GetBoolean(store, KeyAppInitialized, false) then None
    else
      var stored := GetInt(store, KeyMaxResults, 3);
      Some(WidgetConfig(
        if stored < 3 then stored else 3,
        GetString(store, KeyFuelType, Gasolio.Value()),
        GetInt(store, KeyLookAheadKm, 10),
        GetBoolean(store, KeyAlongRouteMode, false),
        CurrentSortMode(store, widgetId)))
  }

  /** Settings saved through `saveSettings` reach the widget: the widget is enabled and uses
      the saved fuel, radius and mode, with the result count capped at three; its sort mode is
      untouched. */
  lemma SavedSettingsReachWidget(store: Store, widgetId: int, lookAheadKm: int, maxResults: int,
                                 updateIntervalMin: int, fuelType: FuelType, alongRouteMode: bool,
                                 useRealDistance: bool)
    ensures var saved := SaveSettings(store, lookAheadKm, maxResults, updateIntervalMin, fuelType,
                                      alongRouteMode, useRealDistance);
            LoadWidgetConfig(saved, widgetId)
            == Some(WidgetConfig(if maxResults < 3 then maxResults else 3, fuelType.Value(), lookAheadKm,
                                 alongRouteMode, CurrentSortMode(store, widgetId)))
  {
    SortModeKeysDistinct(widgetId, widgetId);
  }

  /** The widget and `loadSettings` disagree on two defaults: on a store holding only the
      initialised flag the widget shows 3 results in 360-degree mode, while `loadSettings`
      reports 5 results in route mode. */
  lemma DefaultsDisagree(widgetId: int)
    ensures LoadWidgetConfig(MarkAppAsInitialized(map[]), widgetId)
         == Some(WidgetConfig(3, "gasolio", 10, false, "PRICE"))
    ensures LoadSettings(MarkAppAsInitialized(map[])).maxResults == 5
    ensures LoadSettings(MarkAppAsInitialized(map[])).alongRouteMode
  {
    SortModeKeysDistinct(widgetId, widgetId);
  }

  /** `toggleSortMode`: "PRICE" becomes "DISTANCE", anything else becomes "PRICE"; only this
      widget's key is written. */
  function ToggleSortMode(store: Store, widgetId: int): (r: Store)
    ensures CurrentSortMode(r, widgetId) == if CurrentSortMode(store, widgetId) == "PRICE" then "DISTANCE" else "PRICE"
    ensures r.Keys == store.Keys + {SortModeKey(widgetId)}
    ensures forall k :: k in store && k != SortModeKey(widgetId) ==> r[k] == store[k]
  {
    var newMode := if CurrentSortMode(store, widgetId) == "PRICE" then "DISTANCE" else "PRICE";
    store[SortModeKey(widgetId) := StringPref(newMode)]
  }

  /** Toggling one widget changes neither another widget's sort mode nor the shared settings. */
  lemma ToggleIsolation(store: Store, widgetId: int, other: int)
    requires other != widgetId
    ensures CurrentSortMode(ToggleSortMode(store, widgetId), other) == CurrentSortMode(store, other)
    ensures LoadSettings(ToggleSortMode(store, widgetId)) == LoadSettings(store)
  {
    SortModeKeysDistinct(other, widgetId);
    SortModeKeyNotSetting(widgetId);
  }

  /** Two toggles restore "PRICE" and "DISTANCE"; any other stored value ends as "DISTANCE". */
  lemma ToggleTwice(store: Store, widgetId: int)
    ensures var m := CurrentSortMode(store, widgetId);
            CurrentSortMode(ToggleSortMode(ToggleSortMode(store, widgetId), widgetId), widgetId)
            == if m == "PRICE" then "PRICE" else "DISTANCE"
  {
  }

  // ---------------------------------------------------------------------------------------
  // Station selection

  /** The widget's "ahead" test: spherical angle to the station strictly below 70 degrees. */
  predicate AheadForWidget(t: Trig, loc: Location, s: FuelStation) {
    SphericalAngleToPoint(t, LocationPoint(loc), StationPoint(s), loc.bearing) < AheadLimitDeg
  }

  /** The widget's ingestion: complete records only, no radius. */
  function IngestForWidget(t: Trig, dtos: seq<DistributorDto>, loc: Location): seq<FuelStation> {
    Ingest(t, dtos, LocationPoint(loc), PriceEntryKey, None)
  }

  /** Every complete record becomes a station, however far away. */
  lemma WidgetIngestHasNoRadius(t: Trig, dtos: seq<DistributorDto>, loc: Location, d: DistributorDto)
    requires d in dtos && IsComplete(d)
    ensures Ingested(t, LocationPoint(loc), PriceEntryKey, d) in IngestForWidget(t, dtos, loc)
  {
    IngestMembership(t, dtos, LocationPoint(loc), PriceEntryKey, None, d);
  }

  /** The stations eligible before truncation: the ahead ones when the directional filter runs
      (route mode and a heading, of any accuracy), all of them otherwise. */
  function Candidates(t: Trig, stations: seq<FuelStation>, loc: Location, alongRouteMode: bool): seq<FuelStation> {
    if alongRouteMode && loc.hasBearing then Filter(stations, s => AheadForWidget(t, loc, s)) else stations
  }

  /** `filterStationsAlongRoute` or the plain 360-degree choice: nearest by air first. */
  function SelectNearest(t: Trig, stations: seq<FuelStation>, loc: Location, alongRouteMode: bool, maxResults: nat)
    : (r: seq<FuelStation>)
    ensures |r| == if maxResults < |Candidates(t, stations, loc, alongRouteMode)| then maxResults
                   else |Candidates(t, stations, loc, alongRouteMode)|
    ensures multiset(r) <= multiset(Candidates(t, stations, loc, alongRouteMode))
    ensures SortedBy(r, AirKey)
  {
    var c := Candidates(t, stations, loc, alongRouteMode);
    SortBySorted(c, AirKey);
    SortedPrefix(SortBy(c, AirKey), if maxResults < |c| then maxResults else |c|, AirKey);
    Take(SortBy(c, AirKey), maxResults)
  }

  /** The final ordering: by price for "PRICE", by air distance for "DISTANCE", and as it was
      for any other mode; always a stable permutation. */
  function ApplyWidgetSort(filtered: seq<FuelStation>, sortMode: string): (r: seq<FuelStation>)
    ensures multiset(r) == multiset(filtered)
    ensures sortMode == "PRICE" ==>
              SortedBy(r, PriceKey) && forall k :: SameKey(r, PriceKey, k) == SameKey(filtered, PriceKey, k)
    ensures sortMode == "DISTANCE" ==>
              SortedBy(r, AirOrMaxKey) && forall k :: SameKey(r, AirOrMaxKey, k) == SameKey(filtered, AirOrMaxKey, k)
    ensures sortMode != "PRICE" && sortMode != "DISTANCE" ==> r == filtered
  {
    SortByIsStableSort(filtered, PriceKey);
    SortByIsStableSort(filtered, AirOrMaxKey);
    if sortMode == "PRICE" then SortBy(filtered, PriceKey)
    else if sortMode == "DISTANCE" then SortBy(filtered, AirOrMaxKey)
    else filtered
  }

  /** `processStations`: the nearest eligible stations, truncated, then put in the widget's
      sort order. */
  function ProcessStations(t: Trig, dtos: seq<DistributorDto>, loc: Location, maxResults: nat,
                           alongRouteMode: bool, sortMode: string): (r: seq<FuelStation>)
    ensures |r| <= maxResults
    ensures var c := Candidates(t, IngestForWidget(t, dtos, loc), loc, alongRouteMode);
            |r| == if maxResults < |c| then maxResults else |c|
    ensures r == ApplyWidgetSort(SelectNearest(t, IngestForWidget(t, dtos, loc), loc, alongRouteMode, maxResults),
                                 sortMode)
    ensures sortMode == "PRICE" ==> SortedBy(r, PriceKey)
    ensures sortMode == "DISTANCE" ==> SortedBy(r, AirOrMaxKey)
    ensures sortMode != "PRICE" && sortMode != "DISTANCE" ==> SortedBy(r, AirKey)
    ensures multiset(r) <= multiset(IngestForWidget(t, dtos, loc))
    ensures forall i :: 0 <= i < |r| ==> r[i].airDistanceKm == Some(HaversineKm(t, LocationPoint(loc), StationPoint(r[i])))
    ensures alongRouteMode && loc.hasBearing ==> forall i :: 0 <= i < |r| ==> AheadForWidget(t, loc, r[i])
  {
    var stations := IngestForWidget(t, dtos, loc);
    var filtered := SelectNearest(t, stations, loc, alongRouteMode, maxResults);
    WidgetSelectionSound(t, stations, loc, alongRouteMode, filtered);
    WidgetSelectionSound(t, stations, loc, alongRouteMode, ApplyWidgetSort(filtered, sortMode));
    IngestedAirDistances(t, dtos, loc, ApplyWidgetSort(filtered, sortMode));
    ApplyWidgetSort(filtered, sortMode)
  }

  lemma WidgetSelectionSound(t: Trig, stations: seq<FuelStation>, loc: Location, alongRouteMode: bool,
                             chosen: seq<FuelStation>)
    requires multiset(chosen) <= multiset(Candidates(t, stations, loc, alongRouteMode))
    ensures multiset(chosen) <= multiset(stations)
    ensures alongRouteMode && loc.hasBearing ==> forall i :: 0 <= i < |chosen| ==> AheadForWidget(t, loc, chosen[i])
  {
    if alongRouteMode && loc.hasBearing {
      forall i | 0 <= i < |chosen| ensures AheadForWidget(t, loc, chosen[i]) {
        assert chosen[i] in multiset(chosen);
        FilterMembership(stations, s => AheadForWidget(t, loc, s), chosen[i]);
      }
    }
  }

  lemma IngestedAirDistances(t: Trig, dtos: seq<DistributorDto>, loc: Location, chosen: seq<FuelStation>)
    requires multiset(chosen) <= multiset(IngestForWidget(t, dtos, loc))
    ensures forall i :: 0 <= i < |chosen| ==>
              chosen[i].airDistanceKm == Some(HaversineKm(t, LocationPoint(loc), StationPoint(chosen[i])))
  {
    forall i | 0 <= i < |chosen|
      ensures chosen[i].airDistanceKm == Some(HaversineKm(t, LocationPoint(loc), StationPoint(chosen[i])))
    {
      assert chosen[i] in multiset(chosen);
    }
  }

  /** The widget shows the nearest eligible stations: one it leaves out is no nearer by air than
      any it shows, whatever the sort mode. */
  lemma WidgetKeepsNearest(t: Trig, dtos: seq<DistributorDto>, loc: Location, maxResults: nat,
                           alongRouteMode: bool, sortMode: string, x: FuelStation, y: FuelStation)
    requires x in Candidates(t, IngestForWidget(t, dtos, loc), loc, alongRouteMode)
    requires x !in ProcessStations(t, dtos, loc, maxResults, alongRouteMode, sortMode)
    requires y in ProcessStations(t, dtos, loc, maxResults, alongRouteMode, sortMode)
    ensures KeyLe(AirKey(y), AirKey(x))
  {
    var stations := IngestForWidget(t, dtos, loc);
    var c := Candidates(t, stations, loc, alongRouteMode);
    var filtered := SelectNearest(t, stations, loc, alongRouteMode, maxResults);
    var r := ProcessStations(t, dtos, loc, maxResults, alongRouteMode, sortMode);
    assert multiset(r) == multiset(filtered);
    assert x !in multiset(r);
    assert y in multiset(r);
    TopNKeepsSmallest(c, AirKey, maxResults, x, y);
  }

  /** The sort mode decides the order of the rows, never which stations they are. */
  lemma SortModeOnlyReorders(t: Trig, dtos: seq<DistributorDto>, loc: Location, maxResults: nat,
                             alongRouteMode: bool, m1: string, m2: string)
    ensures multiset(ProcessStations(t, dtos, loc, maxResults, alongRouteMode, m1))
         == multiset(ProcessStations(t, dtos, loc, maxResults, alongRouteMode, m2))
  {
  }

  // ---------------------------------------------------------------------------------------
  // What the widget shows

  /** How the last location request ended. */
  datatype LocationOutcome = LocationFound(loc: Location) | LocationNull | LocationFailed | PermissionDenied

  /** The widget's final content. `Crashed` is an uncaught exception in the network callback. */
  datatype WidgetView =
    | SetupView
    | ErrorView(message: string)
    | StationsView(sortIndicator: string, rows: seq<FuelStation>, emptyText: Option<string>)
    | Crashed

  /** `displayStations`/`displayStationList`: the sort indicator, the first three stations as
      rows, and the empty text exactly when there are none. */
  function DisplayStationList(stations: seq<FuelStation>, sortMode: string): (v: WidgetView)
    ensures v.StationsView?
    ensures |v.rows| == (if |stations| < RowCount then |stations| else RowCount) && v.rows <= stations
    ensures v.emptyText.Some? <==> stations == []
    ensures v.emptyText.Some? ==> v.emptyText.value == EmptyText
    ensures v.sortIndicator == (if sortMode == "PRICE" then "• Prezzo" else "• Distanza")
  {
    StationsView(if sortMode == "PRICE" then "• Prezzo" else "• Distanza",
                 Take(stations, RowCount),
                 if stations == [] then Some(EmptyText) else None)
  }

  /** The query the widget sends: its radius, fuel, and twice its result count. */
  function WidgetQuery(cfg: WidgetConfig, loc: Location): NearbyQuery {
    NearbyQuery(loc.latitude, loc.longitude, cfg.lookAheadKm, cfg.fuelType, cfg.maxResults * 2)
  }

  /** The station query an update sends: none before initialisation or without a fix;
      otherwise one at the fix, with the stored radius and fuel and twice the capped count, so
      never more than six results. */
  function WidgetSearch(store: Store, widgetId: int, located: LocationOutcome): (q: Option<NearbyQuery>)
    ensures q.Some? <==> GetBoolean(store, KeyAppInitialized, false) && located.LocationFound?
    ensures q.Some? ==>
              && q.value.latitude == located.loc.latitude && q.value.longitude == located.loc.longitude
              && q.value.distanceKm == GetInt(store, KeyLookAheadKm, 10)
              && q.value.fuel == GetString(store, KeyFuelType, Gasolio.Value())
              && q.value.results == 2 * LoadWidgetConfig(store, widgetId).value.maxResults
              && q.value.results <= 2 * RowCount
              && (KeyMaxResults !in store ==> q.value.results == 2 * RowCount)
  {
    match LoadWidgetConfig(store, widgetId)
    case None => None
    case Some(cfg) =>
      match located
      case LocationFound(loc) => Some(WidgetQuery(cfg, loc))
      case _ => None
  }

  /** `updateWidget` through to the last view it draws: setup screen before initialisation, an
      error for each location or network failure, else the processed list. A negative stored
      result count makes `take` throw inside the network callback. */
  function UpdateWidget(t: Trig, store: Store, widgetId: int, located: LocationOutcome, fetched: FetchOutcome)
    : (v: WidgetView)
    ensures !GetBoolean(store, KeyAppInitialized, false) <==> v == SetupView
    ensures v.StationsView? ==>
              && |v.rows| <= RowCount
              && located.LocationFound? && fetched.Answered? && ApiClient.IsSuccessful(fetched.code)
              && v.sortIndicator == (if CurrentSortMode(store, widgetId) == "PRICE" then "• Prezzo" else "• Distanza")
    ensures v.ErrorView? ==> v.message in {"Posizione non disponibile", "Errore GPS", "Permessi GPS mancanti",
                                          "Errore rete", "Errore API"}
    ensures GetBoolean(store, KeyAppInitialized, false) ==>
              && (located.LocationNull? ==> v == ErrorView("Posizione non disponibile"))
              && (located.LocationFailed? ==> v == ErrorView("Errore GPS"))
              && (located.PermissionDenied? ==> v == ErrorView("Permessi GPS mancanti"))
              && (located.LocationFound? && fetched.NetworkFailure? ==> v == ErrorView("Errore rete"))
              && (located.LocationFound? && fetched.Answered? && !ApiClient.IsSuccessful(fetched.code) ==>
                    v == ErrorView("Errore API"))
    ensures v.Crashed? <==> && GetBoolean(store, KeyAppInitialized, false)
                            && located.LocationFound? && fetched.Answered? && ApiClient.IsSuccessful(fetched.code)
                            && GetInt(store, KeyMaxResults, 3) < 0
    ensures v.StationsView? || v.Crashed? <==> WidgetSearch(store, widgetId, located).Some? && fetched.Answered?
                                               && ApiClient.IsSuccessful(fetched.code)
  {
    match LoadWidgetConfig(store, widgetId)
    case None => SetupView
    case Some(cfg) =>
      match located
      case LocationNull => ErrorView("Posizione non disponibile")
      case LocationFailed => ErrorView("Errore GPS")
      case PermissionDenied => ErrorView("Permessi GPS mancanti")
      case LocationFound(loc) =>
        match fetched
        case NetworkFailure => ErrorView("Errore rete")
        case Answered(code, body) =>
          if !ApiClient.IsSuccessful(code) then ErrorView("Errore API")
          else if cfg.maxResults < 0 then Crashed
          else
            DisplayStationList(ProcessStations(t, body.GetOr([]), loc, cfg.maxResults, cfg.alongRouteMode, cfg.sortMode),
                               cfg.sortMode)
  }

  /** Once the app is initialised and the search succeeds, the three-row cut of the view hides
      nothing: the capped result count keeps at most three stations, and the rows are exactly
      the processed list, with the empty text when it is empty. */
  lemma WidgetRowsAreProcessed(t: Trig, store: Store, widgetId: int, loc: Location, code: int,
                               body: Option<seq<DistributorDto>>)
    requires GetBoolean(store, KeyAppInitialized, false) && ApiClient.IsSuccessful(code)
    ensures var cfg := LoadWidgetConfig(store, widgetId).value;
            var v := UpdateWidget(t, store, widgetId, LocationFound(loc), Answered(code, body));
            if cfg.maxResults < 0 then v.Crashed?
            else
              && v.StationsView?
              && v.rows == ProcessStations(t, body.GetOr([]), loc, cfg.maxResults, cfg.alongRouteMode, cfg.sortMode)
              && (v.emptyText.Some? <==> v.rows == [])
  {
  }
}

=== FILE: widget_prefs.dfy ===
/** `WidgetPreferencesHelper`: the settings store the widget and the car screen read from,
    kept in the `SharedPreferences` file "FuelFinderWidget", here a map from key to value. */
module Prefs {
  import opened Optional
  import opened Stations

  /** A stored preference value. */
  datatype PrefValue = IntPref(i: int) | StringPref(s: string) | BoolPref(b: bool)

  type Store = map<string, PrefValue>

  const KeyUpdateInterval: string := "update_interval"
  const KeyMaxResults: string := "max_results"
  const KeyFuelType: string := "fuel_type"
  const KeyLookAheadKm: string := "look_ahead_km"
  const KeyAlongRouteMode: string := "along_route_mode"
  const KeyUseRealDistance: string := "use_real_distance"
  const KeyAppInitialized: string := "app_initialized"

  /** The seven keys `saveSettings` writes. */
  const SettingsKeys: set<string> :=
    {KeyLookAheadKm, KeyMaxResults, KeyUpdateInterval, KeyFuelType, KeyAlongRouteMode, KeyUseRealDistance,
     KeyAppInitialized}

  /** `getInt(key, default)`. */
  function GetInt(store: Store, key: string, default: int): (r: int)
    ensures key in store && store[key].IntPref? ==> r == store[key].i
    ensures key !in store ==> r == default
  {
    if key in store && store[key].IntPref? then store[key].i else default
  }

  /** `getString(key, default) ?: default`. */
  function GetString(store: Store, key: string, default: string): (r: string)
    ensures key in store && store[key].StringPref? ==> r == store[key].s
    ensures key !in store ==> r == default
  {
    if key in store && store[key].StringPref? then store[key].s else default
  }

  /** `getBoolean(key, default)`. */
  function GetBoolean(store: Store, key: string, default: bool): (r: bool)
    ensures key in store && store[key].BoolPref? ==> r == store[key].b
    ensures key !in store ==> r == default
  {
    if key in store && store[key].BoolPref? then store[key].b else default
  }

  /** `WidgetPreferencesHelper.Settings`. */
  datatype Settings = Settings(
    lookAheadKm: int,
    maxResults: int,
    updateIntervalMin: int,
    fuelType: string,
    alongRouteMode: bool,
    useRealDistance: bool,
    isInitialized: bool)

  /** `saveSettings`: writes the six settings and marks the app initialised; every other key is
      kept as it was. */
  function SaveSettings(store: Store, lookAheadKm: int, maxResults: int, updateIntervalMin: int,
                        fuelType: FuelType, alongRouteMode: bool, useRealDistance: bool): (r: Store)
    ensures r.Keys == store.Keys + SettingsKeys
    ensures forall k :: k in store && k !in SettingsKeys ==> r[k] == store[k]
  {
    store[KeyLookAheadKm := IntPref(lookAheadKm)]
         [KeyMaxResults := IntPref(maxResults)]
         [KeyUpdateInterval := IntPref(updateIntervalMin)]
         [KeyFuelType := StringPref(fuelType.Value())]
         [KeyAlongRouteMode := BoolPref(alongRouteMode)]
         [KeyUseRealDistance := BoolPref(useRealDistance)]
         [KeyAppInitialized := BoolPref(true)]
  }

  /** `loadSettings`, with its defaults. */
  function LoadSettings(store: Store): (r: Settings)
    ensures store.Keys !! SettingsKeys ==> r == Settings(10, 5, 1, "gasolio", true, false, false)
  {
    Settings(
      GetInt(store, KeyLookAheadKm, 10),
      GetInt(store, KeyMaxResults, 5),
      GetInt(store, KeyUpdateInterval, 1),
      GetString(store, KeyFuelType, Gasolio.Value()),
      GetBoolean(store, KeyAlongRouteMode, true),
      GetBoolean(store, KeyUseRealDistance, false),
      GetBoolean(store, KeyAppInitialized, false))
  }

  /** `markAppAsInitialized`: sets the flag and nothing else. */
  function MarkAppAsInitialized(store: Store): (r: Store)
    ensures r.Keys == store.Keys + {KeyAppInitialized}
    ensures forall k :: k in store && k != KeyAppInitialized ==> r[k] == store[k]
    ensures LoadSettings(r) == LoadSettings(store).(isInitialized := true)
  {
    store[KeyAppInitialized := BoolPref(true)]
  }

  /** Loading after saving gives back what was saved, with the app marked initialised. */
  lemma SaveLoadRoundTrip(store: Store, lookAheadKm: int, maxResults: int, updateIntervalMin: int,
                          fuelType: FuelType, alongRouteMode: bool, useRealDistance: bool)
    ensures LoadSettings(SaveSettings(store, lookAheadKm, maxResults, updateIntervalMin, fuelType,
                                      alongRouteMode, useRealDistance))
         == Settings(lookAheadKm, maxResults, updateIntervalMin, fuelType.Value(), alongRouteMode,
                     useRealDistance, true)
    ensures FuelTypeFromValue(LoadSettings(SaveSettings(store, lookAheadKm, maxResults, updateIntervalMin,
                                                        fuelType, alongRouteMode, useRealDistance)).fuelType)
         == Some(fuelType)
  {
    FuelTypeValueRoundTrip(fuelType, fuelType.Value());
  }

  /** Saving the same settings twice leaves the store as saving them once. */
  lemma SaveSettingsIdempotent(store: Store, lookAheadKm: int, maxResults: int, updateIntervalMin: int,
                               fuelType: FuelType, alongRouteMode: bool, useRealDistance: bool)
    ensures var once := SaveSettings(store, lookAheadKm, maxResults, updateIntervalMin, fuelType, alongRouteMode,
                                     useRealDistance);
            SaveSettings(once, lookAheadKm, maxResults, updateIntervalMin, fuelType, alongRouteMode, useRealDistance)
            == once
  {
  }

  /** A later save wins: saving over a save is the same as the later save alone. */
  lemma LastSaveWins(store: Store, a1: int, m1: int, u1: int, f1: FuelType, r1: bool, d1: bool,
                     a2: int, m2: int, u2: int, f2: FuelType, r2: bool, d2: bool)
    ensures LoadSettings(SaveSettings(SaveSettings(store, a1, m1, u1, f1, r1, d1), a2, m2, u2, f2, r2, d2))
         == LoadSettings(SaveSettings(store, a2, m2, u2, f2, r2, d2))
  {
    SaveLoadRoundTrip(SaveSettings(store, a1, m1, u1, f1, r1, d1), a2, m2, u2, f2, r2, d2);
    SaveLoadRoundTrip(store, a2, m2, u2, f2, r2, d2);
  }
}
